=== FILE: README.md ===
# FoliBusAPI cache and model core in Dafny

This project models the core of FoliBusAPI, a Swift client for the Föli
public transport API in Turku. It covers three parts, each with proofs:

- **The GTFS disk cache.** `Foli.DiskCache` keeps one JSON file per cached
  resource: routes, stops, trips, stop times, stop times for a trip, and
  stop times for a stop. An entry is valid for a configured time after it
  was last written. A load that finds a stale file deletes it.
- **The client's cache policy.** `FoliClient.fetchRoutes()` chooses between
  the cache and the network according to its `CacheBehavior`:
  cached-or-fetch, force-refresh, cached-only or no-cache. Around it sit:
  - the client-level cache queries, which tolerate a missing cache;
  - the constructor, which falls back to no-cache when the cache directory
    cannot be created;
  - `fetchRoute(forRoute:)` and `fetchRoutes(for:)`.
- **The model types' pure logic.**
  - Route and stop display names.
  - Route kinds and route colours.
  - The route-list and stop-list wire formats, modelled over an abstract
    JSON tree.
  - The Codable forms the cache stores.
  - The arrival delay classification.
  - The "time until arrival" text.

Files:

- `wrappers.dfy`: `Option` and `Result`.
- `api_error.dfy`: the error cases.
- `json.dfy`: the JSON tree and the synthesized-Codable conventions.
  - A required key must be present with the right type.
  - `decodeIfPresent` treats a missing key or `null` as absent.
  - `encodeIfPresent` omits absent values.
  - An `Int` must be integral and fit in 64 bits.
- `text.dfy`: Swift's `<` on strings, modelled as lexicographic order on
  characters. It also holds a stable sort by key, the sorted keys of a
  dictionary, and decimal digits.
- `cache_types.dfy`: `CacheResource`, `CacheConfiguration` with its
  presets, and `CacheBehavior`.
- `route.dfy`, `stop.dfy`, `trip.dfy`, `arrival.dfy`: the model types.
- `disk_cache.dfy`: the store.
  - The directory is a map from file name to entry.
  - An entry is a payload plus its modification time.
  - The clock is an explicit `now`, in whole seconds.
  - Three independent sets of file names stand for the files that cannot
    be read, the names that cannot be written, and the files that cannot be
    removed.
- `client.dfy`: the policy.
  - The network answer is a parameter: the response body, or the error
    the transport or the status check raised.
  - Every request returns its result, the directory afterwards, and
    whether the network was called.

Besides the cases of `Foli.APIError`, the model's error type has two more
cases. Each stands for an error the disk cache lets escape unchanged:
`StorageError` for a Foundation file error, and `CorruptCache` for the
`DecodingError` raised while reading a cache file back.

## Model

| member | source | states |
|---|---|---|
| DiskCache.FileName | Sources/FoliBusAPI/Client/Extensions/Caching/Foli+DiskCache.swift:176-195 | The four whole-table resources are stored in `routes.json`, `stops.json`, `trips.json` and `stop_times.json`. A parameterised resource's file name is its fixed prefix (`stop_times_trip_` or `stop_times_stop_`), then the identifier verbatim, then `.json`. |
| DiskCache.FileNameInjective | Sources/FoliBusAPI/Client/Extensions/Caching/Foli+DiskCache.swift:176-195 | Two resources share a file name if and only if they are the same resource, identifiers included. |
| DiskCache.CacheAge | Sources/FoliBusAPI/Client/Extensions/Caching/Foli+DiskCache.swift:128-141 | The age is absent exactly when there is no file. Otherwise the modification time plus the age is `now`, whether or not the entry has expired. |
| DiskCache.HasValidCache | Sources/FoliBusAPI/Client/Extensions/Caching/Foli+DiskCache.swift:121-126 | Valid if and only if the cache is enabled, the file exists, and `now` is at most the modification time plus the validity duration. The bound is inclusive. |
| DiskCache.AgeFollowsClock | Sources/FoliBusAPI/Client/Extensions/Caching/Foli+DiskCache.swift:128-141 | Between two reads of the clock, the age grows by exactly the elapsed time. |
| DiskCache.ValidityIsMonotone | Sources/FoliBusAPI/Client/Extensions/Caching/Foli+DiskCache.swift:121-126 | An entry valid now was valid at every earlier time. An expired entry stays expired until it is rewritten. |
| DiskCache.Load | Sources/FoliBusAPI/Client/Extensions/Caching/Foli+DiskCache.swift:145-163 | When disabled, or when there is no file, the result is absent and the directory is unchanged. A load never writes and removes at most its own file. A value comes back if and only if the entry is valid, readable and decodes, and it is the decoded payload. It is an error if and only if the entry is valid but unreadable (a file error) or does not decode (a decoding error). A stale entry is a miss and is removed; if it cannot be removed, the file stays and no error is raised. |
| DiskCache.Save | Sources/FoliBusAPI/Client/Extensions/Caching/Foli+DiskCache.swift:165-174 | When disabled, nothing happens. A write failure is an error and changes nothing. Otherwise the entry is replaced by the encoded value, stamped with `now`. |
| DiskCache.ClearCache | Sources/FoliBusAPI/Client/Extensions/Caching/Foli+DiskCache.swift:114-119 | A missing file is a no-op. It is an error if and only if the file exists and cannot be removed, and the error changes nothing. On success exactly that one file is gone. |
| DiskCache.ClearAllCache | Sources/FoliBusAPI/Client/Extensions/Caching/Foli+DiskCache.swift:103-112 | Succeeds if and only if every file can be removed, and then leaves the directory empty. On failure it reports a file error, and some unremovable file is still there. It never writes a file. |
| DiskCache.SaveThenLoad | Sources/FoliBusAPI/Client/Extensions/Caching/Foli+DiskCache.swift:145-174 | A save followed by a load within the validity window returns the saved value, whenever the payload decodes to what was encoded. The age is then the time since the save. |
| DiskCache.StaleLoadEvicts | Sources/FoliBusAPI/Client/Extensions/Caching/Foli+DiskCache.swift:150-158 | A load that finds a removable entry stale is a miss. Afterwards there is no age and no valid cache for that resource. |
| DiskCache.ReadOnlyEntryStillServes | Sources/FoliBusAPI/Client/Extensions/Caching/Foli+DiskCache.swift:114-174 | A valid file that can be read but neither rewritten nor removed is still returned by a load. A save or a clear of it fails with a file error and leaves the directory as it was. |
| DiskCache.DisabledIsPassThrough | Sources/FoliBusAPI/Client/Extensions/Caching/Foli+DiskCache.swift:145-174 | A disabled cache is never valid and a save leaves the directory unchanged, so a later load is still a miss. |
| DiskCache.ClearCacheLeavesOthers | Sources/FoliBusAPI/Client/Extensions/Caching/Foli+DiskCache.swift:114-119 | Clearing one resource leaves every other resource's file present or absent as before, with the same entry, and so with the same age and validity. After a successful clear, the cleared resource has no age. |
| DiskCache.SaveLeavesOthers | Sources/FoliBusAPI/Client/Extensions/Caching/Foli+DiskCache.swift:165-174 | Saving one resource leaves every other resource's file present or absent as before, with the same entry, and so with the same age. |
| DiskCache.ShortLivedRoutesScenario | Sources/FoliBusAPI/Client/Extensions/Caching/Foli+DiskCache.swift:145-163 | Under the one-hour `shortLived` configuration, saved routes load back immediately. After 61 minutes a load is a miss, and the file is gone. |
| DiskCache.RoutesPayloadRoundTrip | Sources/FoliBusAPI/Models/Foli+Route.swift:51-61 | An array of routes written with the route's own Codable decodes back to the same routes in the same order. |
| DiskCache.StopsPayloadRoundTrip | Sources/FoliBusAPI/Models/Foli+Stop.swift:49-59 | An array of stops written with the stop's own Codable decodes back to the same stops, coordinates included. |
| DiskCache.TripsPayloadRoundTrip | Sources/FoliBusAPI/Models/Foli+Trip.swift:22-31 | An array of trips written with their Codable decodes back to the same trips. |
| DiskCache.StopTimesPayloadRoundTrip | Sources/FoliBusAPI/Models/Foli+StopTime.swift:24-35 | An array of stop times written with their Codable decodes back to the same stop times. |
| DiskCache.TypedSaveThenLoad | Sources/FoliBusAPI/Client/Extensions/Caching/Foli+DiskCache.swift:55-101 | Each of the twelve typed wrappers loads back, within the validity window, exactly what its partner saved. For stop times this holds for all three resource kinds. |
| FoliClient.Init | Sources/FoliBusAPI/Client/FoliClient.swift:26-37 | The client has a cache if and only if one could be constructed. With a cache, it uses the default configuration and the requested behaviour. Without one, the behaviour is forced to no-cache. |
| FoliClient.DefaultClient | Sources/FoliBusAPI/Client/FoliClient.swift:23-26 | With no arguments, and when the cache directory can be created, the behaviour is cached-or-fetch with a default-configured cache. |
| FoliClient.ClearCache | Sources/FoliBusAPI/Client/Extensions/Caching/FoliClient+Caching.swift:18-20 | Without a cache, a no-op. Otherwise it succeeds if and only if every file can be removed, and then leaves the directory empty. It never writes a file. On failure it reports a file error, and some unremovable file is still there. |
| FoliClient.ClearCacheFor | Sources/FoliBusAPI/Client/Extensions/Caching/FoliClient+Caching.swift:23-25 | Without a cache, a no-op. With one, an error if and only if the file exists and cannot be removed. It removes at most that file and keeps every other file. |
| FoliClient.HasValidCache | Sources/FoliBusAPI/Client/Extensions/Caching/FoliClient+Caching.swift:28-31 | Valid if and only if there is a cache, it is enabled, the file exists, and the file is within its validity duration. |
| FoliClient.CacheAge | Sources/FoliBusAPI/Client/Extensions/Caching/FoliClient+Caching.swift:34-36 | Absent if and only if there is no cache or no file. Otherwise it is the time since the file was written. |
| FoliClient.FetchRoutesFromNetwork | Sources/FoliBusAPI/Client/Extensions/FoliClient+Routes.swift:18-33 | A transport error is passed on. A body that is not a route list is a decoding error. Success means the body decoded; the routes are then sorted by id and are a permutation of the decoded array. |
| FoliClient.FetchRoutes | Sources/FoliBusAPI/Client/Extensions/FoliClient+Routes.swift:55-78 | Whenever the network is called, its answer is the result. Cached-only never calls it; force-refresh and no-cache always do. No file other than the routes file is ever created or changed. Without a cache object the directory is left exactly as it was. |
| FoliClient.CachedOrFetchHit | Sources/FoliBusAPI/Client/Extensions/FoliClient+Routes.swift:57-60 | Cached-or-fetch with a valid, readable, decodable entry returns it. The network is not called and the directory is unchanged. |
| FoliClient.CachedOrFetchMiss | Sources/FoliBusAPI/Client/Extensions/FoliClient+Routes.swift:58-67 | Cached-or-fetch with a miss or without a cache calls the network and returns its answer. Fetched routes are stored, stamped `now`, when the cache is enabled and the file is writable. The directory afterwards is pinned in every case: a stale, removable routes file is first evicted (also when the fetch then fails); the fetched routes are then written if the save can write; otherwise nothing else changes. Without a cache object the directory is unchanged. |
| FoliClient.ForceRefreshAlwaysFetches | Sources/FoliBusAPI/Client/Extensions/FoliClient+Routes.swift:64-67 | Force-refresh always calls the network, even when the cache is valid. A fetch error is thrown and nothing changes. On success the routes entry is replaced when it can be written. A failed save changes nothing and does not affect the result. The directory afterwards is exactly the old one with the fetched routes written when the save can write, and the old one otherwise, in particular when there is no cache object. |
| FoliClient.StaleEvictedThenSaveFails | Sources/FoliBusAPI/Client/Extensions/FoliClient+Routes.swift:57-67 | Under cached-or-fetch, a stale routes file is removed before the fetch. If the following save cannot write, the fetched routes are still returned, and no routes file is left: the directory is the old one less that file. |
| FoliClient.CachedOnlyNeverFetches | Sources/FoliBusAPI/Client/Extensions/FoliClient+Routes.swift:69-73 | Cached-only never calls the network and never writes a file. A miss or a missing cache is `noData`. A hit returns the cached routes with the directory unchanged. The directory afterwards is exactly the old one minus a stale, removable routes file, which the lookup evicts; in every other case it is unchanged. |
| FoliClient.NoCacheBypassesCache | Sources/FoliBusAPI/Client/Extensions/FoliClient+Routes.swift:75-76 | No-cache returns the network's answer and leaves the directory exactly as it was. |
| FoliClient.LoadErrorPropagates | Sources/FoliBusAPI/Client/Extensions/FoliClient+Routes.swift:56-73 | Under cached-or-fetch or cached-only, a cache read that throws ends the request with that error. It is not treated as a miss: the network is not called and the directory is unchanged. |
| FoliClient.FailedCacheMeansNetworkOnly | Sources/FoliBusAPI/Client/FoliClient.swift:30-35 | If the cache could not be created, every route request is served from the network, whatever behaviour was asked for. There is no valid cache and no age. |
| FoliClient.IndexOfId | Sources/FoliBusAPI/Client/Extensions/FoliClient+Routes.swift:40 | The returned position holds a route with the id, or is the end of the list, and no earlier route has the id. |
| FoliClient.FirstWithId | Sources/FoliBusAPI/Client/Extensions/FoliClient+Routes.swift:40 | Absent if and only if no route has the id. Otherwise the result has the id and is the route at a position that no earlier matching route precedes. |
| FoliClient.WithShortName | Sources/FoliBusAPI/Client/Extensions/FoliClient+Routes.swift:48 | Every kept route has the short name. Every route with the short name is kept as often as it occurs. The result is a subsequence of the input, so the order is preserved. |
| FoliClient.FetchRoute | Sources/FoliBusAPI/Client/Extensions/FoliClient+Routes.swift:38-41 | Has the same network use, directory and errors as fetching all routes. On success it is absent exactly when no fetched route has the id. Otherwise it is the fetched route with that id at the first position where the id occurs. |
| FoliClient.FetchRoutesFor | Sources/FoliBusAPI/Client/Extensions/FoliClient+Routes.swift:46-49 | Has the same network use, directory and errors as fetching all routes. On success it returns exactly the fetched routes with the short name, in their original order. |
| Routes.DisplayName | Sources/FoliBusAPI/Models/Foli+Route.swift:66-71 | The long name when it is non-empty, otherwise the short name. So the result is the short name if and only if the long name is empty or equals the short name. |
| Routes.FullDisplayName | Sources/FoliBusAPI/Models/Foli+Route.swift:74-79 | The short name alone when the long name is empty. Otherwise the short name, then `" - "` at the next three positions, then the display name (the long name) filling the rest. |
| Routes.FullDisplayNameIsDisplayNameIff | Sources/FoliBusAPI/Models/Foli+Route.swift:66-79 | The full name equals the display name if and only if the long name is empty. |
| Routes.ColorHex | Sources/FoliBusAPI/Models/Foli+Route.swift:82-95 | There is a colour if and only if the field is present and non-empty, and it is the field's text. |
| Routes.BusAndTramExclusive | Sources/FoliBusAPI/Models/Foli+Route.swift:98-105 | A bus has route type 3 and a tram route type 0. No route is both. |
| Routes.RouteRoundTrip | Sources/FoliBusAPI/Models/Foli+Route.swift:51-61 | A route written under its GTFS keys decodes back to itself, absent optionals included. |
| Routes.EncodeRouteList | Sources/FoliBusAPI/Models/Foli+Route.swift:141-157 | An array with one element per route, in order, each decoding back to its route. |
| Routes.DecodeRouteList | Sources/FoliBusAPI/Models/Foli+Route.swift:134-139 | Succeeds if and only if the array decodes. The result is sorted by id and is a permutation of the decoded array. |
| Routes.RouteListRoundTrip | Sources/FoliBusAPI/Models/Foli+Route.swift:134-157 | Decoding an encoded route list gives the same routes, every field intact, reordered by id. |
| Stops.Location | Sources/FoliBusAPI/Models/Foli+Stop.swift:64-74 | The coordinate is present if and only if both latitude and longitude are, and it is made of them. |
| Stops.DisplayName | Sources/FoliBusAPI/Models/Foli+Stop.swift:77-82 | The result always ends with the stop name. It equals the name if and only if there is no code or the code is empty. Otherwise it is the code, one space, then the name, and nothing else. |
| Stops.StopRoundTrip | Sources/FoliBusAPI/Models/Foli+Stop.swift:49-59 | A stop written with its own Codable decodes back to itself, coordinates included. |
| Stops.EntryToStop | Sources/FoliBusAPI/Models/Foli+Stop.swift:91-120 | Decoding succeeds if and only if the entry is an object with a string `stop_name`, and `stop_code`, `stop_lat`, `stop_lon` and `zone_id` are each absent, null or of the right type. The decoded stop has the key as its id and those five fields' values. Location type, parent station and wheelchair boarding are always absent. |
| Stops.DecodeStopList | Sources/FoliBusAPI/Models/Foli+Stop.swift:108-122 | Succeeds if and only if the document is an object whose every entry decodes. It yields one stop per key, its id equal to the key and decoded from that key's entry, sorted strictly by id. |
| Stops.EmptyObjectDecodes | Tests/FoliBusAPITests/FoliBusAPITests.swift:49-56 | `{}` decodes to the empty list. |
| Stops.ArrayDoesNotDecode | Tests/FoliBusAPITests/FoliBusAPITests.swift:112-124 | A top-level array never decodes as a stop list. |
| Stops.EncodeListWith | Sources/FoliBusAPI/Models/Foli+Stop.swift:124-134 | For stops with distinct ids, an object whose keys are exactly the ids, each mapped to that stop's entry. |
| Stops.UniqueIdsCount | Sources/FoliBusAPI/Models/Foli+Stop.swift:126 | With distinct ids there are as many keys as stops. |
| Stops.ListRoundTripWith | Sources/FoliBusAPI/Models/Foli+Stop.swift:108-134 | If each entry decodes back to its stop, so does the whole list. The count is kept, and every stop is present less the three fields the list format does not carry. |
| Stops.EntryRoundTrip | Sources/FoliBusAPI/Models/Foli+Stop.swift:91-134 | A stop without coordinates survives its list entry. |
| Stops.StopListRoundTrip | Tests/FoliBusAPITests/FoliBusAPITests.swift:74-93 | Stops without coordinates survive an encode and decode: the same count, and each stop present with its id, name, code and zone. |
| Stops.CoordinateEntryRejected | Sources/FoliBusAPI/Models/Foli+Stop.swift:94-130 | An entry written for a stop with any coordinate does not decode. |
| Stops.CoordinateBreaksRoundTrip | Sources/FoliBusAPI/Models/Foli+Stop.swift:108-135 | As written, one stop with a coordinate makes the whole encoded list fail to decode. |
| Stops.FixedEntryRoundTrip | Sources/FoliBusAPI/Models/Foli+Stop.swift:91-97 | With coordinates written as numbers, every stop survives its list entry. |
| Stops.FixedStopListRoundTrip | Sources/FoliBusAPI/Models/Foli+Stop.swift:108-134 | With coordinates written as numbers, every list of stops with distinct ids survives an encode and decode, coordinates included. |
| Trips.TripRoundTrip | Sources/FoliBusAPI/Models/Foli+Trip.swift:22-31 | A trip written under its GTFS keys decodes back to itself. |
| Trips.StopTimeRoundTrip | Sources/FoliBusAPI/Models/Foli+StopTime.swift:24-35 | A stop time written under its GTFS keys decodes back to itself. |
| Arrivals.ArrivalDelay | Sources/FoliBusAPI/Models/Foli+Arrival.swift:109-111 | The planned arrival plus the delay is the expected arrival. |
| Arrivals.DelayTrichotomy | Sources/FoliBusAPI/Models/Foli+Arrival.swift:113-126 | Late, early and on time hold exactly when the expected arrival is after, before or at the planned one. Exactly one of them holds. |
| Arrivals.TimeUntilArrival | Sources/FoliBusAPI/Models/Foli+Arrival.swift:129-131 | `now` plus the time until arrival is the expected arrival. |
| Arrivals.TruncDiv | Sources/FoliBusAPI/Models/Foli+Arrival.swift:136 | The quotient rounds toward zero: the remainder has the dividend's sign and is smaller than the divisor. |
| Arrivals.FormattedTimeUntilArrival | Sources/FoliBusAPI/Models/Foli+Arrival.swift:134-151 | The text is `"Due"` if and only if the whole minutes until arrival are zero or negative. Otherwise it starts with a non-zero digit. Under an hour it ends in `" min"`, for whole hours in `h`, and for hours and minutes in `m`. |
| Arrivals.TextForMinutes | Sources/FoliBusAPI/Models/Foli+Arrival.swift:140-149 | For a positive number of minutes, the text starts with a non-zero digit. It ends in `" min"` under an hour, in `h` for whole hours, and in `m` for hours with leftover minutes. Which hours and remainder it writes is fixed by `Arrivals.ParsedTextIsCanonical` and the round-trip lemmas. |
| Arrivals.FormattedTimeRoundTrip | Sources/FoliBusAPI/Models/Foli+Arrival.swift:134-151 | Reading the text back gives the minutes, or 0 for `"Due"`. No other text reads back to the same value, so the text is determined by the minutes. |
| Arrivals.ParsedTextIsCanonical | Sources/FoliBusAPI/Models/Foli+Arrival.swift:140-149 | Any text that reads back to m minutes is exactly the formatter's text for m: `"Due"` for 0, otherwise the hours m / 60 and the remainder m % 60 (from 1 to 59), written without leading zeros. So `"1h 90m"` or `"0h 150m"` are never the text for 150. |
| Arrivals.MinutesTextRoundTrip | Sources/FoliBusAPI/Models/Foli+Arrival.swift:140-141 | Under an hour, `"<m> min"` reads back as m. |
| Arrivals.HoursTextRoundTrip | Sources/FoliBusAPI/Models/Foli+Arrival.swift:142-148 | For a whole number of hours, `"<h>h"` reads back as h times 60. |
| Arrivals.HoursMinutesTextRoundTrip | Sources/FoliBusAPI/Models/Foli+Arrival.swift:142-146 | With a remainder, `"<h>h <r>m"` reads back as h times 60 plus r. |
| Arrivals.Location | Sources/FoliBusAPI/Models/Foli+Arrival.swift:154-159 | The coordinate is present if and only if both latitude and longitude are, and it is made of them. |
| Arrivals.NoSiriDataIsInvalid | Sources/FoliBusAPI/Models/Foli+Arrival.swift:191-193 | Only the `"OK"` status is valid, so `"NO_SIRI_DATA"` is not. |
| Json.IntRoundTrip | Sources/FoliBusAPI/Models/Foli+Route.swift:125 | A 64-bit integer written as a JSON number reads back as itself. |
| Json.ArrayRoundTrip | Sources/FoliBusAPI/Models/Foli+Route.swift:136 | An array of elements that each decode back to themselves decodes back to itself, in order. |
| Text.SortBy | Sources/FoliBusAPI/Models/Foli+Route.swift:138 | The result is sorted by key and is a permutation of the input, the same length. |
| Text.SortedKeys | Sources/FoliBusAPI/Models/Foli+Stop.swift:121 | The keys in strictly increasing order, each exactly once. |
| Text.LessTrichotomy | Sources/FoliBusAPI/Models/Foli+Stop.swift:121 | Any two distinct strings are ordered one way or the other, which is what makes sorting by id a total order. |

## Left out

- Network layer. URL construction, `URLSession` and the HTTP status check
  are not modelled. The client receives the response body, or the error
  they raised, as a parameter. The other fetch operations (stops, trips,
  stop times, arrivals) follow the same network pattern and are not part
  of this model.
- Concurrency. Actor isolation, `async`/`await` and atomic writes are left
  out. Each operation is one sequential step on the directory.
- File system. `FileManager`, the Application Support directory and the
  constructor's directory creation are left out. Whether the cache can be
  constructed is a boolean parameter of `FoliClient.Init`.
- Modification dates. `attributesOfItem` could fail or lack a modification
  date, which would give no age. The model assumes dates are always
  available.
- Directory listing. The contents listing in `clearAllCache` is assumed to
  succeed. It is a parameter naming each file exactly once.
- File names as paths. File names are compared as strings. Identifiers
  containing `/` or `..` are not resolved as paths.
- Byte-level JSON. `JSONEncoder`/`JSONDecoder` and the `.sortedKeys` and
  `.prettyPrinted` output options are left out; JSON is an abstract tree.
- Stops.EntryFields: how Swift prints a `Double` with `String(lat)` is a
  function parameter, not a formatting algorithm.
- Floating point. `TimeInterval` values are whole seconds and coordinates
  are real numbers.
- Arrivals.TruncDiv: the runtime trap of `Int(_:)` on a non-finite or
  out-of-range `Double` is not modelled.
- Routes.ColorHex: `Color(hex:)` (SwiftUI, `Scanner`, floating division)
  is not modelled. The model keeps the hex text that would be handed to
  it.
- Strings. Swift's `<` compares Unicode scalar sequences; it is modelled
  as lexicographic order on characters, without normalisation.
- UUID `id` fields of arrivals, trips and stop times are not part of
  their coding keys. They are left out of those records.
- `APIError.errorDescription` strings and the errors wrapped inside
  `networkError` and `decodingError` are left out. The SwiftUI property
  wrappers, the stale duplicate actor in `Sources/FoliBusAPI/FoliClient.swift`
  and `Package.swift` are not part of this model.
- Stops.EncodeListWith: requires distinct ids.
  `Dictionary(uniqueKeysWithValues:)` traps on a duplicate id, and the
  model excludes those inputs rather than modelling the trap.

## Findings

| source | as written | input that shows it | evidently intended | confidence | as-written member | corrected member |
|---|---|---|---|---|---|---|
| Sources/FoliBusAPI/Models/Foli+Stop.swift:129-130 | `FoliStopList.encode` writes `stop_lat`/`stop_lon` as JSON strings, but `init(from:)` reads them as `Double?` (lines 94-95). Decoding a string as `Double` is a type mismatch. | Any stop with a latitude, e.g. `Stop(id: "1", stopName: "A", stopLat: 60.45)`: its encoded list does not decode at all. | Coordinates written as JSON numbers, so that encoding then decoding a stop list returns every stop with its coordinates. | high (not executed) | Stops.CoordinateBreaksRoundTrip | Stops.FixedStopListRoundTrip |

=== FILE: api_error.dfy ===
/** The errors a request can end in: the cases of `Foli.APIError`, plus the two
    kinds of error the disk cache lets escape (Foundation file errors and the
    `DecodingError` thrown while reading a cache file back). */
module ApiErrors {

  datatype Error =
    | InvalidUrl
    | InvalidResponse
    | NetworkError
    | DecodingError
    | ServerError(message: string)
    | NoData
      /** A read, write or remove of a cache file failed. */
    | StorageError
      /** A cache file exists but its contents do not decode as the requested type. */
    | CorruptCache
}

=== FILE: arrival.dfy ===
/** `Foli.Arrival` (one vehicle approaching a stop), its delay classification,
    the "time until arrival" text, and the stop-monitoring response's validity
    check. Times are whole seconds since the Unix epoch. */
module Arrivals {
  import opened Wrappers
  import opened Json
  import Text

  datatype Arrival = Arrival(
    recordedAtTime: int,
    lineRef: string,
    monitored: bool,
    latitude: Option<real>,
    longitude: Option<real>,
    originAimedDepartureTime: int,
    destinationAimedArrivalTime: int,
    destinationDisplay: string,
    aimedArrivalTime: int,
    expectedArrivalTime: int,
    aimedDepartureTime: int,
    expectedDepartureTime: int,
    delay: Option<Int64>)

  datatype Coordinate = Coordinate(latitude: real, longitude: real)

  // ---- Delay -----------------------------------------------------------------

  /** Seconds the vehicle is expected after its planned arrival (negative when
      early); computed from the two times, not from the `delay` field. */
  function ArrivalDelay(a: Arrival): (d: int)
    ensures a.aimedArrivalTime + d == a.expectedArrivalTime
  {
    a.expectedArrivalTime - a.aimedArrivalTime
  }

  predicate IsLate(a: Arrival)
  {
    ArrivalDelay(a) > 0
  }

  predicate IsEarly(a: Arrival)
  {
    ArrivalDelay(a) < 0
  }

  predicate IsOnTime(a: Arrival)
  {
    ArrivalDelay(a) == 0
  }

  /** Every arrival is exactly one of late, early and on time, according to
      how its expected arrival compares with the planned one. */
  lemma DelayTrichotomy(a: Arrival)
    ensures IsLate(a) <==> a.expectedArrivalTime > a.aimedArrivalTime
    ensures IsEarly(a) <==> a.expectedArrivalTime < a.aimedArrivalTime
    ensures IsOnTime(a) <==> a.expectedArrivalTime == a.aimedArrivalTime
    ensures IsLate(a) || IsEarly(a) || IsOnTime(a)
    ensures !(IsLate(a) && IsEarly(a)) && !(IsLate(a) && IsOnTime(a)) && !(IsEarly(a) && IsOnTime(a))
  {
  }

  // ---- Time until arrival ----------------------------------------------------

  function TimeUntilArrival(a: Arrival, now: int): (seconds: int)
    ensures now + seconds == a.expectedArrivalTime
  {
    a.expectedArrivalTime - now
  }

  /** Swift's `Int(x / 60)`: division rounded toward zero, which differs from
      Dafny's Euclidean `/` for negative dividends. */
  function TruncDiv(x: int, d: int): (q: int)
    requires d > 0
    ensures x >= 0 ==> 0 <= x - q * d < d
    ensures x < 0 ==> -d < x - q * d <= 0
  {
    if x >= 0 then x / d else -((-x) / d)
  }

  /** Whole minutes until arrival, rounded toward zero. */
  function MinutesUntilArrival(a: Arrival, now: int): int {
    TruncDiv(TimeUntilArrival(a, now), 60)
  }

  /** `"Due"` once less than a minute is left (or the time has passed),
      `"<m> min"` under an hour, `"<h>h <m>m"` or `"<h>h"` from an hour on. */
  function FormattedTimeUntilArrival(a: Arrival, now: int): (text: string)
    ensures text == "Due" <==> MinutesUntilArrival(a, now) <= 0
    ensures 0 < MinutesUntilArrival(a, now) < 60 ==> |text| > 4 && text[|text| - 4..] == " min"
    ensures MinutesUntilArrival(a, now) >= 60 && MinutesUntilArrival(a, now) % 60 == 0 ==> |text| > 0 && text[|text| - 1] == 'h'
    ensures MinutesUntilArrival(a, now) >= 60 && MinutesUntilArrival(a, now) % 60 > 0 ==> |text| > 0 && text[|text| - 1] == 'm'
    ensures MinutesUntilArrival(a, now) > 0 ==> |text| > 0 && Text.IsDigit(text[0]) && text[0] != '0'
  {
    var minutes := MinutesUntilArrival(a, now);
    if minutes <= 0 then "Due"
    else
      var text := TextForMinutes(minutes);
      assert Text.IsDigit(text[0]);
      text
  }

  /** The text for a positive number of minutes. It starts with a digit other
      than zero, and its last characters tell the three shapes apart: `" min"`
      under an hour, `'h'` for whole hours, `'m'` for hours and minutes. */
  function TextForMinutes(minutes: nat): (text: string)
    requires minutes > 0
    ensures |text| > 0 && Text.IsDigit(text[0]) && text[0] != '0'
    ensures minutes < 60 ==> |text| > 4 && text[|text| - 4..] == " min"
    ensures minutes >= 60 && minutes % 60 == 0 ==> text[|text| - 1] == 'h'
    ensures minutes >= 60 && minutes % 60 > 0 ==> text[|text| - 1] == 'm'
  {
    if minutes < 60 then Text.NatToString(minutes) + " min"
    else
      var hours := minutes / 60;
      var remainingMinutes := minutes % 60;
      if remainingMinutes > 0 then
        Text.NatToString(hours) + "h " + Text.NatToString(remainingMinutes) + "m"
      else
        Text.NatToString(hours) + "h"
  }

  // ---- Reading the text back -----------------------------------------------

  function DigitPrefixLength(s: string): (n: nat)
    ensures n <= |s|
    ensures forall i :: 0 <= i < n ==> Text.IsDigit(s[i])
    ensures n < |s| ==> !Text.IsDigit(s[n])
  {
    if |s| == 0 || !Text.IsDigit(s[0]) then 0 else 1 + DigitPrefixLength(s[1..])
  }

  lemma {:induction false} DigitPrefixOf(digits: string, tail: string)
    requires forall i :: 0 <= i < |digits| ==> Text.IsDigit(digits[i])
    requires |tail| > 0 && !Text.IsDigit(tail[0])
    ensures DigitPrefixLength(digits + tail) == |digits|
  {
    if |digits| > 0 {
      assert (digits + tail)[1..] == digits[1..] + tail;
      DigitPrefixOf(digits[1..], tail);
    }
  }

  /** The number of minutes a formatted text stands for (0 for `"Due"`), or
      `None` for text the formatter never produces. Numbers are accepted only
      as the formatter writes them: without leading zeros, minutes alone only
      below an hour, hours only from one on, and a remainder only from 1 to
      59. */
  function ParseTimeUntilArrival(s: string): Option<nat>
  {
    var n := DigitPrefixLength(s);
    if n == 0 then
      if s == "Due" then Some(0) else None
    else if !Text.IsNumeral(s[..n]) then None
    else ParseUnits(Text.ParseDigits(s[..n]), s[n..])
  }

  /** The minutes for a leading number `value` followed by `rest`. */
  function ParseUnits(value: nat, rest: string): Option<nat>
  {
    if rest == " min" then
      if 0 < value < 60 then Some(value) else None
    else if rest == "h" then
      if value > 0 then Some(value * 60) else None
    else if |rest| >= 4 && rest[..2] == "h " && rest[|rest| - 1] == 'm' && Text.IsNumeral(rest[2..|rest| - 1]) then
      var remainder := Text.ParseDigits(rest[2..|rest| - 1]);
      if value > 0 && 0 < remainder < 60 then Some(value * 60 + remainder) else None
    else None
  }

  lemma ParseAfterNumeral(digits: string, rest: string)
    requires Text.IsNumeral(digits)
    requires |rest| > 0 && !Text.IsDigit(rest[0])
    ensures ParseTimeUntilArrival(digits + rest) == ParseUnits(Text.ParseDigits(digits), rest)
  {
    DigitPrefixOf(digits, rest);
    assert (digits + rest)[..|digits|] == digits;
    assert (digits + rest)[|digits|..] == rest;
  }

  lemma SplitMinutes(hours: nat, remainder: nat)
    requires remainder < 60
    ensures (hours * 60 + remainder) / 60 == hours
    ensures (hours * 60 + remainder) % 60 == remainder
  {
  }

  lemma MinutesTextRoundTrip(minutes: nat)
    requires 0 < minutes < 60
    ensures ParseTimeUntilArrival(TextForMinutes(minutes)) == Some(minutes)
  {
    var d := Text.NatToString(minutes);
    assert TextForMinutes(minutes) == d + " min";
    ParseAfterNumeral(d, " min");
    Text.NatToStringRoundTrip(minutes);
  }

  lemma HoursTextRoundTrip(minutes: nat)
    requires minutes >= 60 && minutes % 60 == 0
    ensures ParseTimeUntilArrival(TextForMinutes(minutes)) == Some(minutes)
  {
    var hours := minutes / 60;
    SplitMinutes(hours, 0);
    var h := Text.NatToString(hours);
    assert TextForMinutes(minutes) == h + "h";
    ParseAfterNumeral(h, "h");
    Text.NatToStringRoundTrip(hours);
  }

  lemma HoursMinutesUnits(hours: nat, remainder: nat)
    requires hours > 0 && 0 < remainder < 60
    ensures ParseUnits(hours, "h " + Text.NatToString(remainder) + "m") == Some(hours * 60 + remainder)
  {
    var m := Text.NatToString(remainder);
    var rest := "h " + m + "m";
    Text.NatToStringRoundTrip(remainder);
    assert rest[..2] == "h " && rest[2..|rest| - 1] == m;
  }

  lemma HoursMinutesTextRoundTrip(minutes: nat)
    requires minutes >= 60 && minutes % 60 > 0
    ensures ParseTimeUntilArrival(TextForMinutes(minutes)) == Some(minutes)
  {
    var hours, remainder := minutes / 60, minutes % 60;
    var h := Text.NatToString(hours);
    var rest := "h " + Text.NatToString(remainder) + "m";
    assert TextForMinutes(minutes) == h + "h " + Text.NatToString(remainder) + "m";
    ConcatAssociative(h, "h ", Text.NatToString(remainder), "m");
    ParseAfterNumeral(h, rest);
    Text.NatToStringRoundTrip(hours);
    HoursMinutesUnits(hours, remainder);
  }

  lemma ConcatAssociative(a: string, b: string, c: string, d: string)
    ensures a + b + c + d == a + (b + c + d)
  {
  }

  lemma HoursMinutesSuffix(rest: string)
    requires |rest| >= 4 && rest[..2] == "h " && rest[|rest| - 1] == 'm'
    ensures rest == "h " + rest[2..|rest| - 1] + "m"
  {
  }

  lemma HoursMinutesText(hours: nat, remainder: nat)
    requires hours > 0 && 0 < remainder < 60
    ensures TextForMinutes(hours * 60 + remainder)
            == Text.NatToString(hours) + "h " + Text.NatToString(remainder) + "m"
  {
    SplitMinutes(hours, remainder);
  }

  lemma MinutesText(minutes: nat)
    requires 0 < minutes < 60
    ensures TextForMinutes(minutes) == Text.NatToString(minutes) + " min"
  {
  }

  lemma HoursText(hours: nat)
    requires hours > 0
    ensures TextForMinutes(hours * 60) == Text.NatToString(hours) + "h"
  {
    var minutes := hours * 60;
    SplitMinutes(hours, 0);
    assert minutes >= 60 && minutes / 60 == hours && minutes % 60 == 0;
  }

  lemma HoursMinutesCanonical(h: string, r: string, hours: nat, remainder: nat, minutes: nat)
    requires hours > 0 && 0 < remainder < 60 && minutes == hours * 60 + remainder
    requires Text.NatToString(hours) == h && Text.NatToString(remainder) == r
    ensures h + ("h " + r + "m") == TextForMinutes(minutes)
  {
    HoursMinutesText(hours, remainder);
    ConcatAssociative(h, "h ", r, "m");
  }

  lemma HoursMinutesUnitsFacts(value: nat, rest: string, minutes: nat)
    requires ParseUnits(value, rest) == Some(minutes) && rest != " min" && rest != "h"
    ensures |rest| >= 4 && rest[..2] == "h " && rest[|rest| - 1] == 'm'
    ensures Text.IsNumeral(rest[2..|rest| - 1])
    ensures value > 0 && 0 < Text.ParseDigits(rest[2..|rest| - 1]) < 60
    ensures minutes == value * 60 + Text.ParseDigits(rest[2..|rest| - 1])
  {
  }

  /** The only text with a leading numeral that reads back to `minutes` is
      the formatter's text for `minutes`. */
  lemma UnitsCanonical(digits: string, rest: string, minutes: nat)
    requires Text.IsNumeral(digits)
    requires ParseUnits(Text.ParseDigits(digits), rest) == Some(minutes)
    ensures minutes > 0 && digits + rest == TextForMinutes(minutes)
  {
    var value := Text.ParseDigits(digits);
    if rest == " min" {
      Text.NumeralRoundTrip(digits);
      MinutesText(value);
    } else if rest == "h" {
      Text.NumeralRoundTrip(digits);
      HoursText(value);
    } else {
      HoursMinutesUnitsFacts(value, rest, minutes);
      var r := rest[2..|rest| - 1];
      Text.NumeralRoundTrip(digits);
      Text.NumeralRoundTrip(r);
      HoursMinutesSuffix(rest);
      HoursMinutesCanonical(digits, r, value, Text.ParseDigits(r), minutes);
    }
  }

  /** Every text the reader accepts is the one the formatter writes for its
      minutes: hours are the minutes divided by 60 and the remainder is the
      rest, each written without leading zeros. */
  lemma ParsedTextIsCanonical(s: string, minutes: nat)
    requires ParseTimeUntilArrival(s) == Some(minutes)
    ensures minutes == 0 ==> s == "Due"
    ensures minutes > 0 ==> s == TextForMinutes(minutes)
  {
    var n := DigitPrefixLength(s);
    if n > 0 {
      assert s == s[..n] + s[n..];
      UnitsCanonical(s[..n], s[n..], minutes);
    }
  }

  /** The formatted text determines the minutes it was made from, and the
      other way round: reading it back gives the minutes until arrival, or 0
      when it says `"Due"`, and no other text reads back to the same value. */
  lemma FormattedTimeRoundTrip(a: Arrival, now: int)
    ensures ParseTimeUntilArrival(FormattedTimeUntilArrival(a, now))
            == Some(if MinutesUntilArrival(a, now) <= 0 then 0 else MinutesUntilArrival(a, now))
    ensures forall t :: ParseTimeUntilArrival(t) == ParseTimeUntilArrival(FormattedTimeUntilArrival(a, now))
                        ==> t == FormattedTimeUntilArrival(a, now)
  {
    var minutes := MinutesUntilArrival(a, now);
    forall t | ParseTimeUntilArrival(t) == Some(if minutes <= 0 then 0 else minutes)
      ensures t == FormattedTimeUntilArrival(a, now)
    {
      ParsedTextIsCanonical(t, if minutes <= 0 then 0 else minutes);
    }
    if minutes <= 0 {
      assert DigitPrefixLength("Due") == 0;
    } else if minutes < 60 {
      MinutesTextRoundTrip(minutes);
    } else if minutes % 60 == 0 {
      HoursTextRoundTrip(minutes);
    } else {
      HoursMinutesTextRoundTrip(minutes);
    }
  }

  // ---- Location and response -----------------------------------------------

  function Location(a: Arrival): (c: Option<Coordinate>)
    ensures c.Some? <==> a.latitude.Some? && a.longitude.Some?
    ensures c.Some? ==> c.value == Coordinate(a.latitude.value, a.longitude.value)
  {
    match (a.latitude, a.longitude)
    case (Some(lat), Some(lon)) => Some(Coordinate(lat, lon))
    case _ => None
  }

  datatype ArrivalResponse = ArrivalResponse(sys: string, status: string, serverTime: int, result: seq<Arrival>)

  /** Only the `"OK"` status marks a usable response; `"NO_SIRI_DATA"` and any
      other status do not. */
  predicate IsValid(r: ArrivalResponse)
  {
    r.status == "OK"
  }

  lemma NoSiriDataIsInvalid(r: ArrivalResponse)
    ensures r.status == "NO_SIRI_DATA" ==> !IsValid(r)
    ensures IsValid(r) ==> r.status == "OK"
  {
  }
}

=== FILE: cache_types.dfy ===
/** The three small value types the cache is configured and addressed with. */
module CacheTypes {

  /** The kinds of cacheable data; two are parameterised by an identifier. */
  datatype CacheResource =
    | Routes
    | Stops
    | Trips
    | StopTimes
    | StopTimesForTrip(tripId: string)
    | StopTimesForStop(stopId: string)

  /** How long (in whole seconds) an entry stays valid, and whether the cache
      is used at all. */
  datatype CacheConfiguration = CacheConfiguration(validityDuration: int, isEnabled: bool)

  const DEFAULT_VALIDITY_DURATION: int := 24 * 60 * 60

  const DefaultConfiguration: CacheConfiguration := CacheConfiguration(DEFAULT_VALIDITY_DURATION, true)
  const DisabledConfiguration: CacheConfiguration := CacheConfiguration(DEFAULT_VALIDITY_DURATION, false)
  const ShortLivedConfiguration: CacheConfiguration := CacheConfiguration(60 * 60, true)
  const LongLivedConfiguration: CacheConfiguration := CacheConfiguration(7 * 24 * 60 * 60, true)

  /** The caller-selected strategy for serving a request. */
  datatype CacheBehavior =
    | CachedOrFetch
    | ForceRefresh
    | CachedOnly
    | NoCache
}

=== FILE: client.dfy ===
/** `FoliClient`'s cache policy: how the selected cache behaviour decides
    between the disk cache and the network when routes are requested, the
    client-level cache queries that tolerate a missing cache, and the
    constructor's fallback when no cache can be created.

    The network is an outcome supplied by the caller (the HTTP body as JSON,
    or the error the transport raised), so every call is a pure step that
    reports its result, the directory it leaves behind and whether the
    network was consulted. */
module FoliClient {
  import opened Wrappers
  import opened Json
  import opened ApiErrors
  import opened CacheTypes
  import opened DiskCache
  import Routes
  import Text

  type Route = Routes.Route

  /** `cache` is the configuration of the installed disk cache, or `None`
      when the client has no cache. */
  datatype Client = Client(cache: Option<CacheConfiguration>, behavior: CacheBehavior)

  /** The outcome of a request: what it returns or throws, the directory
      afterwards, and whether a network request was made. */
  datatype Fetched<T> = Fetched(result: Result<T, Error>, disk: Disk, networkCalled: bool)

  const DEFAULT_BEHAVIOR: CacheBehavior := CachedOrFetch

  // ---- Construction --------------------------------------------------------

  /** Installs a default-configured disk cache; if the cache directory cannot
      be created the client runs without a cache and never uses one. */
  function Init(requested: CacheBehavior, cacheConstructs: bool): (c: Client)
    ensures c.cache.Some? <==> cacheConstructs
    ensures cacheConstructs ==> c.cache.value == DefaultConfiguration && c.behavior == requested
    ensures !cacheConstructs ==> c.behavior == NoCache
  {
    if cacheConstructs then Client(Some(DefaultConfiguration), requested)
    else Client(None, NoCache)
  }

  /** The client made without arguments. */
  function DefaultClient(cacheConstructs: bool): (c: Client)
    ensures cacheConstructs ==> c.behavior == CachedOrFetch && c.cache == Some(DefaultConfiguration)
  {
    Init(DEFAULT_BEHAVIOR, cacheConstructs)
  }

  // ---- Client-level cache operations --------------------------------------------

  /** Clearing everything is a no-op without a cache. */
  method ClearCache(c: Client, d: Disk, listing: seq<string>) returns (res: Stored)
    requires IsListingOf(listing, d)
    ensures res.disk.faults == d.faults
    ensures c.cache.None? ==> res == Stored(Ok(()), d)
    ensures res.outcome.Ok? <==> c.cache.None? || forall n :: n in d.files ==> n !in d.faults.unremovable
    ensures c.cache.Some? && res.outcome.Ok? ==> res.disk.files == map[]
    ensures res.outcome.Err? ==> res.outcome.error == StorageError
    ensures res.outcome.Err? ==> exists n :: n in res.disk.files && n in d.faults.unremovable
    ensures res.disk.files.Keys <= d.files.Keys
    ensures forall n :: n in res.disk.files ==> res.disk.files[n] == d.files[n]
  {
    if c.cache.None? {
      return Stored(Ok(()), d);
    }
    res := ClearAllCache(d, listing);
  }

  /** Clearing one resource is a no-op without a cache; otherwise only that
      resource's file goes. */
  function ClearCacheFor(c: Client, d: Disk, r: CacheResource): (res: Stored)
    ensures res.disk.faults == d.faults
    ensures c.cache.None? ==> res == Stored(Ok(()), d)
    ensures res.outcome.Err? <==> c.cache.Some? && FileName(r) in d.files && FileName(r) in d.faults.unremovable
    ensures res.outcome.Err? ==> res.disk == d
    ensures c.cache.Some? && res.outcome.Ok? ==> FileName(r) !in res.disk.files
    ensures forall n :: n in res.disk.files ==> n in d.files && res.disk.files[n] == d.files[n]
    ensures forall n :: n in d.files && n != FileName(r) ==> n in res.disk.files
  {
    if c.cache.None? then Stored(Ok(()), d) else DiskCache.ClearCache(d, r)
  }

  /** No cache means no valid cache. */
  function HasValidCache(c: Client, d: Disk, r: CacheResource, now: int): (valid: bool)
    ensures valid <==> c.cache.Some? && c.cache.value.isEnabled && FileName(r) in d.files
                        && now <= d.files[FileName(r)].modified + c.cache.value.validityDuration
  {
    match c.cache
    case None => false
    case Some(cfg) => DiskCache.HasValidCache(d, cfg, r, now)
  }

  /** No cache means no age; otherwise the file's age, whether or not the
      cache is enabled. */
  function CacheAge(c: Client, d: Disk, r: CacheResource, now: int): (age: Option<int>)
    ensures age.None? <==> c.cache.None? || FileName(r) !in d.files
    ensures age.Some? ==> d.files[FileName(r)].modified + age.value == now
  {
    match c.cache
    case None => None
    case Some(_) => DiskCache.CacheAge(d, r, now)
  }

  // ---- Routes ----------------------------------------------------------------

  /** The network request for all routes: a transport error is passed on, a
      body that does not decode as a route list is a decoding error. */
  function FetchRoutesFromNetwork(response: Result<Json, Error>): (r: Result<seq<Route>, Error>)
    ensures response.Err? ==> r == Err(response.error)
    ensures response.Ok? && Routes.DecodeRouteList(response.value).None? ==> r == Err(DecodingError)
    ensures r.Ok? <==> response.Ok? && Routes.DecodeRouteList(response.value).Some?
    ensures r.Ok? ==> Text.SortedBy(r.value, Routes.RouteId)
    ensures r.Ok? ==> multiset(r.value) == multiset(DecodeArray(response.value, Routes.RouteFromJson).value)
  {
    match response
    case Err(e) => Err(e)
    case Ok(body) =>
      match Routes.DecodeRouteList(body)
      case None => Err(DecodingError)
      case Some(routes) => Ok(routes)
  }

  /** `cache?.loadRoutes()`: a miss when there is no cache. */
  function LoadCachedRoutes(c: Client, d: Disk, now: int): Loaded<seq<Route>> {
    match c.cache
    case None => Loaded(Ok(None), d)
    case Some(cfg) => LoadRoutes(d, cfg, now)
  }

  /** `try? cache?.saveRoutes(routes)`: the directory afterwards; a failed
      save leaves it as it was and is otherwise ignored. */
  function SaveFetchedRoutes(c: Client, d: Disk, routes: seq<Route>, now: int): Disk {
    match c.cache
    case None => d
    case Some(cfg) => SaveRoutes(d, cfg, routes, now).disk
  }

  /** Fetch, then save what was fetched on a best-effort basis. */
  function Refresh(c: Client, d: Disk, now: int, response: Result<Json, Error>): Fetched<seq<Route>> {
    match FetchRoutesFromNetwork(response)
    case Err(e) => Fetched(Err(e), d, true)
    case Ok(routes) => Fetched(Ok(routes), SaveFetchedRoutes(c, d, routes, now), true)
  }

  /** `fetchRoutes()`: the four cache behaviours. A cache hit under
      cached-or-fetch is returned as is; a miss falls through to a refresh. */
  function FetchRoutes(c: Client, d: Disk, now: int, response: Result<Json, Error>): (r: Fetched<seq<Route>>)
    ensures r.networkCalled ==> r.result == FetchRoutesFromNetwork(response)
    ensures c.behavior == CachedOnly ==> !r.networkCalled
    ensures c.behavior == ForceRefresh || c.behavior == NoCache ==> r.networkCalled
    ensures r.disk.faults == d.faults
    ensures forall n :: n in r.disk.files && n != FileName(CacheResource.Routes) ==> n in d.files && r.disk.files[n] == d.files[n]
    ensures forall n :: n in d.files && n != FileName(CacheResource.Routes) ==> n in r.disk.files
    ensures c.cache.None? ==> r.disk == d
  {
    match c.behavior
    case CachedOrFetch =>
      var loaded := LoadCachedRoutes(c, d, now);
      (match loaded.value
       case Err(e) => Fetched(Err(e), loaded.disk, false)
       case Ok(Some(routes)) => Fetched(Ok(routes), loaded.disk, false)
       case Ok(None) => Refresh(c, loaded.disk, now, response))
    case ForceRefresh => Refresh(c, d, now, response)
    case CachedOnly =>
      var loaded := LoadCachedRoutes(c, d, now);
      (match loaded.value
       case Err(e) => Fetched(Err(e), loaded.disk, false)
       case Ok(Some(routes)) => Fetched(Ok(routes), loaded.disk, false)
       case Ok(None) => Fetched(Err(NoData), loaded.disk, false))
    case NoCache => Fetched(FetchRoutesFromNetwork(response), d, true)
  }

  /** The routes file of an installed cache is valid now, readable, and
      decodes to `cached`. */
  predicate CacheHolds(c: Client, d: Disk, now: int, cached: seq<Route>)
  {
    && c.cache.Some?
    && DiskCache.HasValidCache(d, c.cache.value, CacheResource.Routes, now)
    && FileName(CacheResource.Routes) !in d.faults.unreadable
    && DecodeRoutes(d.files[FileName(CacheResource.Routes)].payload) == Some(cached)
  }

  /** There is no installed cache, or its routes entry is missing, stale or
      disabled. */
  predicate CacheMisses(c: Client, d: Disk, now: int)
  {
    c.cache.None? || !DiskCache.HasValidCache(d, c.cache.value, CacheResource.Routes, now)
  }

  /** An installed, enabled cache holds a stale routes file that can be
      removed, so loading the routes evicts it. */
  predicate StaleRoutesRemovable(c: Client, d: Disk, now: int)
  {
    && c.cache.Some? && c.cache.value.isEnabled
    && FileName(CacheResource.Routes) in d.files
    && !DiskCache.HasValidCache(d, c.cache.value, CacheResource.Routes, now)
    && FileName(CacheResource.Routes) !in d.faults.unremovable
  }

  /** The directory after the routes were looked up in the cache. */
  function AfterRoutesLookup(c: Client, d: Disk, now: int): Disk {
    if StaleRoutesRemovable(c, d, now) then d.(files := d.files - {FileName(CacheResource.Routes)}) else d
  }

  /** An installed, enabled cache can write the routes file. */
  predicate RoutesSaveWrites(c: Client, d: Disk)
  {
    c.cache.Some? && c.cache.value.isEnabled && FileName(CacheResource.Routes) !in d.faults.unwritable
  }

  /** `d` with the routes file replaced by `routes`, stamped with `now`. */
  function WithRoutes(d: Disk, routes: seq<Route>, now: int): Disk {
    d.(files := d.files[FileName(CacheResource.Routes) := Entry(EncodeRoutes(routes), now)])
  }

  /** Cached-or-fetch with a hit returns the cached routes without touching
      the network or the directory. */
  lemma CachedOrFetchHit(c: Client, d: Disk, now: int, response: Result<Json, Error>, cached: seq<Route>)
    requires c.behavior == CachedOrFetch && CacheHolds(c, d, now, cached)
    ensures FetchRoutes(c, d, now, response) == Fetched(Ok(cached), d, false)
  {
  }

  /** Cached-or-fetch with a miss (or without a cache) fetches and returns
      the network's answer, and stores it when it was fetched and can be
      written. */
  lemma CachedOrFetchMiss(c: Client, d: Disk, now: int, response: Result<Json, Error>)
    requires c.behavior == CachedOrFetch && CacheMisses(c, d, now)
    ensures FetchRoutes(c, d, now, response).networkCalled
    ensures FetchRoutes(c, d, now, response).result == FetchRoutesFromNetwork(response)
    ensures var r := FetchRoutes(c, d, now, response);
            r.result.Ok? && c.cache.Some? && c.cache.value.isEnabled && FileName(CacheResource.Routes) !in d.faults.unwritable ==>
              r.disk.files[FileName(CacheResource.Routes)] == Entry(EncodeRoutes(r.result.value), now)
    ensures var r := FetchRoutes(c, d, now, response);
            var looked := AfterRoutesLookup(c, d, now);
            r.disk == (if r.result.Ok? && RoutesSaveWrites(c, d) then WithRoutes(looked, r.result.value, now) else looked)
    ensures c.cache.None? ==> FetchRoutes(c, d, now, response).disk == d
  {
  }

  /** Force-refresh always asks the network, even when the cache is valid. A
      fetch error is thrown and nothing is saved; a save that fails does not
      affect the result. */
  lemma ForceRefreshAlwaysFetches(c: Client, d: Disk, now: int, response: Result<Json, Error>)
    requires c.behavior == ForceRefresh
    ensures FetchRoutes(c, d, now, response).networkCalled
    ensures FetchRoutes(c, d, now, response).result == FetchRoutesFromNetwork(response)
    ensures FetchRoutesFromNetwork(response).Err? ==> FetchRoutes(c, d, now, response).disk == d
    ensures var r := FetchRoutes(c, d, now, response);
            r.result.Ok? && c.cache.Some? && c.cache.value.isEnabled && FileName(CacheResource.Routes) !in d.faults.unwritable ==>
              r.disk.files == d.files[FileName(CacheResource.Routes) := Entry(EncodeRoutes(r.result.value), now)]
    ensures var r := FetchRoutes(c, d, now, response);
            FileName(CacheResource.Routes) in d.faults.unwritable ==> r.disk == d
    ensures var r := FetchRoutes(c, d, now, response);
            r.disk == (if r.result.Ok? && RoutesSaveWrites(c, d) then WithRoutes(d, r.result.value, now) else d)
    ensures c.cache.None? ==> FetchRoutes(c, d, now, response).disk == d
  {
  }

  /** A stale routes file is evicted before the fetch; if the save that
      follows cannot write, the fetched routes are still returned and no
      routes file is left behind. */
  lemma StaleEvictedThenSaveFails(c: Client, d: Disk, now: int, response: Result<Json, Error>)
    requires c.behavior == CachedOrFetch && c.cache.Some? && c.cache.value.isEnabled
    requires FileName(CacheResource.Routes) in d.files
    requires !DiskCache.HasValidCache(d, c.cache.value, CacheResource.Routes, now)
    requires FileName(CacheResource.Routes) !in d.faults.unremovable
    requires FileName(CacheResource.Routes) in d.faults.unwritable
    requires FetchRoutesFromNetwork(response).Ok?
    ensures FetchRoutes(c, d, now, response).result == FetchRoutesFromNetwork(response)
    ensures FileName(CacheResource.Routes) !in FetchRoutes(c, d, now, response).disk.files
    ensures FetchRoutes(c, d, now, response).disk.files == d.files - {FileName(CacheResource.Routes)}
  {
  }

  /** Cached-only never asks the network and never writes a file; a miss is
      `noData`. */
  lemma CachedOnlyNeverFetches(c: Client, d: Disk, now: int, response: Result<Json, Error>)
    requires c.behavior == CachedOnly
    ensures !FetchRoutes(c, d, now, response).networkCalled
    ensures var r := FetchRoutes(c, d, now, response);
            forall n :: n in r.disk.files ==> n in d.files && r.disk.files[n] == d.files[n]
    ensures CacheMisses(c, d, now) ==> FetchRoutes(c, d, now, response).result == Err(NoData)
    ensures forall cached :: CacheHolds(c, d, now, cached) ==>
              FetchRoutes(c, d, now, response) == Fetched(Ok(cached), d, false)
    ensures FetchRoutes(c, d, now, response).disk == AfterRoutesLookup(c, d, now)
    ensures StaleRoutesRemovable(c, d, now) ==>
              FetchRoutes(c, d, now, response).disk.files == d.files - {FileName(CacheResource.Routes)}
    ensures !StaleRoutesRemovable(c, d, now) ==> FetchRoutes(c, d, now, response).disk == d
  {
  }

  /** No-cache returns the network's answer and neither reads nor writes the
      directory. */
  lemma NoCacheBypassesCache(c: Client, d: Disk, now: int, response: Result<Json, Error>)
    requires c.behavior == NoCache
    ensures FetchRoutes(c, d, now, response) == Fetched(FetchRoutesFromNetwork(response), d, true)
  {
  }

  /** A cache read that throws is passed on, not treated as a miss. */
  lemma LoadErrorPropagates(c: Client, d: Disk, now: int, response: Result<Json, Error>)
    requires c.behavior == CachedOrFetch || c.behavior == CachedOnly
    requires c.cache.Some? && DiskCache.HasValidCache(d, c.cache.value, CacheResource.Routes, now)
    requires FileName(CacheResource.Routes) in d.faults.unreadable
             || DecodeRoutes(d.files[FileName(CacheResource.Routes)].payload).None?
    ensures FetchRoutes(c, d, now, response).result.Err?
    ensures FetchRoutes(c, d, now, response).result.error
              == if FileName(CacheResource.Routes) in d.faults.unreadable then StorageError else CorruptCache
    ensures !FetchRoutes(c, d, now, response).networkCalled
    ensures FetchRoutes(c, d, now, response).disk == d
  {
  }

  /** A client whose cache could not be created serves every request from
      the network and leaves the directory alone, whatever was requested. */
  lemma FailedCacheMeansNetworkOnly(requested: CacheBehavior, d: Disk, now: int, response: Result<Json, Error>)
    ensures FetchRoutes(Init(requested, false), d, now, response) == Fetched(FetchRoutesFromNetwork(response), d, true)
    ensures !HasValidCache(Init(requested, false), d, CacheResource.Routes, now)
    ensures CacheAge(Init(requested, false), d, CacheResource.Routes, now).None?
  {
  }

  // ---- Looking up routes ------------------------------------------------------

  /** The position of the first route with the given id, or `|routes|`. */
  function IndexOfId(routes: seq<Route>, routeId: string): (i: nat)
    ensures i <= |routes|
    ensures i < |routes| ==> routes[i].id == routeId
    ensures forall j :: 0 <= j < i ==> routes[j].id != routeId
    decreases |routes|
  {
    if |routes| == 0 then 0
    else if routes[0].id == routeId then 0
    else 1 + IndexOfId(routes[1..], routeId)
  }

  /** `routes.first { $0.id == routeId }`. */
  function FirstWithId(routes: seq<Route>, routeId: string): (found: Option<Route>)
    ensures found.None? <==> forall j :: 0 <= j < |routes| ==> routes[j].id != routeId
    ensures found.Some? ==> found.value.id == routeId
    ensures found.Some? ==> exists i :: 0 <= i < |routes| && routes[i] == found.value
                                          && forall j :: 0 <= j < i ==> routes[j].id != routeId
  {
    var i := IndexOfId(routes, routeId);
    if i < |routes| then Some(routes[i]) else None
  }

  /** `xs` can be obtained from `ys` by deleting elements. */
  ghost predicate IsSubsequence<T>(xs: seq<T>, ys: seq<T>)
    decreases |ys|
  {
    if |xs| == 0 then true
    else if |ys| == 0 then false
    else if xs[0] == ys[0] then IsSubsequence(xs[1..], ys[1..])
    else IsSubsequence(xs, ys[1..])
  }

  /** `routes.filter { $0.shortName == lineRef }`. */
  function WithShortName(routes: seq<Route>, lineRef: string): (r: seq<Route>)
    ensures forall x :: x in r ==> x.shortName == lineRef
    ensures forall x: Route :: x.shortName == lineRef ==> multiset(r)[x] == multiset(routes)[x]
    ensures IsSubsequence(r, routes)
    decreases |routes|
  {
    if |routes| == 0 then []
    else
      assert routes == [routes[0]] + routes[1..];
      var rest := WithShortName(routes[1..], lineRef);
      if routes[0].shortName == lineRef then
        assert ([routes[0]] + rest)[1..] == rest;
        [routes[0]] + rest
      else rest
  }

  /** `fetchRoute(forRoute:)`: fetch as `fetchRoutes()` does, then pick the
      first route with the id. */
  function FetchRoute(c: Client, d: Disk, now: int, response: Result<Json, Error>, routeId: string): (r: Fetched<Option<Route>>)
    ensures var all := FetchRoutes(c, d, now, response);
            && r.disk == all.disk && r.networkCalled == all.networkCalled
            && (r.result.Ok? <==> all.result.Ok?)
            && (all.result.Err? ==> r.result.error == all.result.error)
    ensures var all := FetchRoutes(c, d, now, response);
            r.result.Ok? ==>
              && (r.result.value.None? <==> forall j :: 0 <= j < |all.result.value| ==> all.result.value[j].id != routeId)
              && (r.result.value.Some? ==> r.result.value.value.id == routeId)
              && (r.result.value.Some? ==>
                    exists i :: 0 <= i < |all.result.value| && all.result.value[i] == r.result.value.value
                                && forall j :: 0 <= j < i ==> all.result.value[j].id != routeId)
  {
    var all := FetchRoutes(c, d, now, response);
    match all.result
    case Err(e) => Fetched(Err(e), all.disk, all.networkCalled)
    case Ok(routes) => Fetched(Ok(FirstWithId(routes, routeId)), all.disk, all.networkCalled)
  }

  /** `fetchRoutes(for:)`: fetch as `fetchRoutes()` does, then keep the routes
      whose short name is the line reference, in order. */
  function FetchRoutesFor(c: Client, d: Disk, now: int, response: Result<Json, Error>, lineRef: string): (r: Fetched<seq<Route>>)
    ensures var all := FetchRoutes(c, d, now, response);
            && r.disk == all.disk && r.networkCalled == all.networkCalled
            && (r.result.Ok? <==> all.result.Ok?)
            && (all.result.Err? ==> r.result.error == all.result.error)
    ensures var all := FetchRoutes(c, d, now, response);
            r.result.Ok? ==>
              && IsSubsequence(r.result.value, all.result.value)
              && (forall x :: x in r.result.value ==> x.shortName == lineRef)
              && (forall x: Route :: x.shortName == lineRef ==> multiset(r.result.value)[x] == multiset(all.result.value)[x])
  {
    var all := FetchRoutes(c, d, now, response);
    match all.result
    case Err(e) => Fetched(Err(e), all.disk, all.networkCalled)
    case Ok(routes) => Fetched(Ok(WithShortName(routes, lineRef)), all.disk, all.networkCalled)
  }
}

=== FILE: disk_cache.dfy ===
/** `Foli.DiskCache`: one JSON file per cached resource in a private cache
    directory, valid for a configured time after it was last written.

    The directory is modelled as a map from file name to entry (payload and
    modification time), and the clock as an explicit `now` in whole seconds.
    Three sets of file names stand for the ways the file system can fail: a
    file that cannot be read, a name that cannot be written, and a file that
    cannot be removed (a full disk, a read-only directory, missing
    permissions). Each failure is independent of the others. Existence checks
    and modification dates are always available. */
module DiskCache {
  import opened Wrappers
  import opened Json
  import opened ApiErrors
  import opened CacheTypes
  import Routes
  import Stops
  import Trips

  datatype Entry = Entry(payload: Json, modified: int)

  /** The names on which reading, writing or removing throws. */
  datatype Faults = Faults(unreadable: set<string>, unwritable: set<string>, unremovable: set<string>)

  datatype Disk = Disk(files: map<string, Entry>, faults: Faults)

  /** What a load returns and the directory it leaves behind. */
  datatype Loaded<T> = Loaded(value: Result<Option<T>, Error>, disk: Disk)

  /** What a save or a removal reports and the directory it leaves behind. */
  datatype Stored = Stored(outcome: Result<(), Error>, disk: Disk)

  // ---- File names ------------------------------------------------------------

  const TRIP_PREFIX: string := "stop_times_trip_"
  const STOP_PREFIX: string := "stop_times_stop_"
  const JSON_SUFFIX: string := ".json"

  /** The file a resource is stored in; identifiers are embedded verbatim. */
  function FileName(r: CacheResource): (name: string)
    ensures r.Routes? ==> name == "routes.json"
    ensures r.Stops? ==> name == "stops.json"
    ensures r.Trips? ==> name == "trips.json"
    ensures r.StopTimes? ==> name == "stop_times.json"
    ensures r.StopTimesForTrip? ==> name == TRIP_PREFIX + r.tripId + JSON_SUFFIX
    ensures r.StopTimesForStop? ==> name == STOP_PREFIX + r.stopId + JSON_SUFFIX
  {
    match r
    case Routes => "routes.json"
    case Stops => "stops.json"
    case Trips => "trips.json"
    case StopTimes => "stop_times.json"
    case StopTimesForTrip(tripId) => TRIP_PREFIX + tripId + JSON_SUFFIX
    case StopTimesForStop(stopId) => STOP_PREFIX + stopId + JSON_SUFFIX
  }

  lemma {:induction false} EmbeddedIdInjective(prefix: string, x: string, y: string)
    requires prefix + x + JSON_SUFFIX == prefix + y + JSON_SUFFIX
    ensures x == y
  {
    var n := prefix + x + JSON_SUFFIX;
    assert |x| == |y|;
    assert x == n[|prefix|..|prefix| + |x|];
    assert y == n[|prefix|..|prefix| + |y|];
  }

  lemma TripAndStopNamesDiffer(x: string, y: string)
    ensures TRIP_PREFIX + x + JSON_SUFFIX != STOP_PREFIX + y + JSON_SUFFIX
  {
    assert (TRIP_PREFIX + x + JSON_SUFFIX)[11] == 't';
    assert (STOP_PREFIX + y + JSON_SUFFIX)[11] == 's';
  }

  /** Distinct resources never share a file name. */
  lemma FileNameInjective(a: CacheResource, b: CacheResource)
    ensures FileName(a) == FileName(b) <==> a == b
  {
    if a.StopTimesForTrip? && b.StopTimesForTrip? {
      if FileName(a) == FileName(b) {
        EmbeddedIdInjective(TRIP_PREFIX, a.tripId, b.tripId);
      }
    } else if a.StopTimesForStop? && b.StopTimesForStop? {
      if FileName(a) == FileName(b) {
        EmbeddedIdInjective(STOP_PREFIX, a.stopId, b.stopId);
      }
    } else if a.StopTimesForTrip? && b.StopTimesForStop? {
      TripAndStopNamesDiffer(a.tripId, b.stopId);
    } else if a.StopTimesForStop? && b.StopTimesForTrip? {
      TripAndStopNamesDiffer(b.tripId, a.stopId);
    }
  }

  // ---- Age and validity ------------------------------------------------------

  /** Seconds since the file was last written, expired or not; `None` when
      there is no file. */
  function CacheAge(d: Disk, r: CacheResource, now: int): (age: Option<int>)
    ensures age.None? <==> FileName(r) !in d.files
    ensures age.Some? ==> d.files[FileName(r)].modified + age.value == now
  {
    var name := FileName(r);
    if name in d.files then Some(now - d.files[name].modified) else None
  }

  /** Enabled, present, and no older than the validity duration (the bound is
      inclusive). A pure query: nothing is evicted. */
  function HasValidCache(d: Disk, cfg: CacheConfiguration, r: CacheResource, now: int): (valid: bool)
    ensures valid <==> cfg.isEnabled && FileName(r) in d.files
                        && now <= d.files[FileName(r)].modified + cfg.validityDuration
  {
    if !cfg.isEnabled then false
    else
      match CacheAge(d, r, now)
      case None => false
      case Some(age) => age <= cfg.validityDuration
  }

  /** Age grows one-for-one with the clock. */
  lemma AgeFollowsClock(d: Disk, r: CacheResource, now: int, later: int)
    requires FileName(r) in d.files && now <= later
    ensures CacheAge(d, r, later).value == CacheAge(d, r, now).value + (later - now)
  {
  }

  /** An entry that is valid now was valid at every earlier time since it was
      written, and an expired one stays expired. */
  lemma ValidityIsMonotone(d: Disk, cfg: CacheConfiguration, r: CacheResource, earlier: int, now: int)
    requires earlier <= now
    ensures HasValidCache(d, cfg, r, now) ==> HasValidCache(d, cfg, r, earlier)
    ensures cfg.isEnabled && FileName(r) in d.files && !HasValidCache(d, cfg, r, earlier) ==> !HasValidCache(d, cfg, r, now)
  {
  }

  // ---- Load, save, clear ------------------------------------------------------

  /** Absent when disabled, when there is no file, or when the file is stale;
      a stale file is removed first, and a failure to remove it is ignored.
      A valid file is read and decoded; a read failure or a payload that does
      not decode is an error, not a miss. */
  function Load<T>(d: Disk, cfg: CacheConfiguration, r: CacheResource, now: int, decode: Json -> Option<T>): (res: Loaded<T>)
    ensures res.disk.faults == d.faults
    ensures res.disk.files.Keys <= d.files.Keys
    ensures forall n :: n in res.disk.files ==> res.disk.files[n] == d.files[n]
    ensures forall n :: n in d.files && n != FileName(r) ==> n in res.disk.files
    ensures !cfg.isEnabled ==> res == Loaded(Ok(None), d)
    ensures FileName(r) !in d.files ==> res == Loaded(Ok(None), d)
    ensures HasValidCache(d, cfg, r, now) ==> res.disk == d
    ensures res.value.Ok? && res.value.value.Some? <==>
              HasValidCache(d, cfg, r, now) && FileName(r) !in d.faults.unreadable && decode(d.files[FileName(r)].payload).Some?
    ensures res.value.Ok? && res.value.value.Some? ==> decode(d.files[FileName(r)].payload) == res.value.value
    ensures res.value.Err? <==> HasValidCache(d, cfg, r, now) && (FileName(r) in d.faults.unreadable || decode(d.files[FileName(r)].payload).None?)
    ensures res.value.Err? ==> res.value.error == (if FileName(r) in d.faults.unreadable then StorageError else CorruptCache)
    ensures cfg.isEnabled && FileName(r) in d.files && !HasValidCache(d, cfg, r, now) ==>
              res.value == Ok(None) &&
              res.disk.files == (if FileName(r) in d.faults.unremovable then d.files else d.files - {FileName(r)})
  {
    var name := FileName(r);
    if !cfg.isEnabled then Loaded(Ok(None), d)
    else if name !in d.files then Loaded(Ok(None), d)
    else if !HasValidCache(d, cfg, r, now) then
      if name in d.faults.unremovable then Loaded(Ok(None), d)
      else Loaded(Ok(None), d.(files := d.files - {name}))
    else if name in d.faults.unreadable then Loaded(Err(StorageError), d)
    else
      match decode(d.files[name].payload)
      case Some(v) => Loaded(Ok(Some(v)), d)
      case None => Loaded(Err(CorruptCache), d)
  }

  /** A no-op when disabled. Otherwise the file is replaced as a whole,
      stamped with the current time; if the write fails nothing changes. */
  function Save<T>(d: Disk, cfg: CacheConfiguration, r: CacheResource, v: T, now: int, encode: T -> Json): (res: Stored)
    ensures res.disk.faults == d.faults
    ensures !cfg.isEnabled ==> res == Stored(Ok(()), d)
    ensures cfg.isEnabled && FileName(r) in d.faults.unwritable ==> res == Stored(Err(StorageError), d)
    ensures cfg.isEnabled && FileName(r) !in d.faults.unwritable ==>
              res.outcome.Ok? && res.disk.files == d.files[FileName(r) := Entry(encode(v), now)]
  {
    var name := FileName(r);
    if !cfg.isEnabled then Stored(Ok(()), d)
    else if name in d.faults.unwritable then Stored(Err(StorageError), d)
    else Stored(Ok(()), d.(files := d.files[name := Entry(encode(v), now)]))
  }

  /** Removes the resource's file if there is one; a missing file is not an
      error. The configuration is not consulted. */
  function ClearCache(d: Disk, r: CacheResource): (res: Stored)
    ensures res.disk.faults == d.faults
    ensures FileName(r) !in d.files ==> res == Stored(Ok(()), d)
    ensures res.outcome.Err? <==> FileName(r) in d.files && FileName(r) in d.faults.unremovable
    ensures res.outcome.Err? ==> res == Stored(Err(StorageError), d)
    ensures res.outcome.Ok? ==> res.disk.files == d.files - {FileName(r)}
  {
    var name := FileName(r);
    if name in d.files then
      if name in d.faults.unremovable then Stored(Err(StorageError), d)
      else Stored(Ok(()), d.(files := d.files - {name}))
    else Stored(Ok(()), d)
  }

  /** `listing` is the order in which the directory's contents are reported. */
  ghost predicate IsListingOf(listing: seq<string>, d: Disk)
  {
    && (forall n :: n in d.files <==> n in listing)
    && (forall i, j :: 0 <= i < j < |listing| ==> listing[i] != listing[j])
  }

  /** Removes the files one by one in listing order and stops with an error
      at the first one that cannot be removed; the configuration is not
      consulted. */
  method ClearAllCache(d: Disk, listing: seq<string>) returns (res: Stored)
    requires IsListingOf(listing, d)
    ensures res.disk.faults == d.faults
    ensures res.outcome.Ok? <==> forall n :: n in d.files ==> n !in d.faults.unremovable
    ensures res.outcome.Ok? ==> res.disk.files == map[]
    ensures res.outcome.Err? ==> res.outcome.error == StorageError
    ensures res.outcome.Err? ==> exists n :: n in res.disk.files && n in d.faults.unremovable
    ensures res.disk.files.Keys <= d.files.Keys
    ensures forall n :: n in res.disk.files ==> res.disk.files[n] == d.files[n]
  {
    var files := d.files;
    var i := 0;
    while i < |listing|
      invariant 0 <= i <= |listing|
      invariant forall n :: n in files <==> n in d.files && n !in listing[..i]
      invariant forall n :: n in files ==> files[n] == d.files[n]
      invariant forall k :: 0 <= k < i ==> listing[k] !in d.faults.unremovable
    {
      var name := listing[i];
      if name in d.faults.unremovable {
        assert name in files by {
          assert name !in listing[..i];
        }
        return Stored(Err(StorageError), Disk(files, d.faults));
      }
      files := files - {name};
      i := i + 1;
    }
    assert listing[..i] == listing;
    return Stored(Ok(()), Disk(files, d.faults));
  }

  // ---- Properties across calls ------------------------------------------------

  /** A successful save followed by a load within the validity window gives
      the saved value back, provided the payload survives its own encoding. */
  lemma SaveThenLoad<T>(d: Disk, cfg: CacheConfiguration, r: CacheResource, v: T, saved: int, now: int,
                        encode: T -> Json, decode: Json -> Option<T>)
    requires cfg.isEnabled && FileName(r) !in d.faults.unwritable && FileName(r) !in d.faults.unreadable
    requires decode(encode(v)) == Some(v)
    requires saved <= now <= saved + cfg.validityDuration
    ensures Save(d, cfg, r, v, saved, encode).outcome.Ok?
    ensures Load(Save(d, cfg, r, v, saved, encode).disk, cfg, r, now, decode).value == Ok(Some(v))
    ensures CacheAge(Save(d, cfg, r, v, saved, encode).disk, r, now) == Some(now - saved)
  {
  }

  /** A load that finds the entry stale evicts it: the age is gone afterwards
      and another load is still a miss. */
  lemma StaleLoadEvicts<T>(d: Disk, cfg: CacheConfiguration, r: CacheResource, now: int, decode: Json -> Option<T>)
    requires cfg.isEnabled && FileName(r) in d.files && FileName(r) !in d.faults.unremovable
    requires now > d.files[FileName(r)].modified + cfg.validityDuration
    ensures Load(d, cfg, r, now, decode).value == Ok(None)
    ensures CacheAge(Load(d, cfg, r, now, decode).disk, r, now).None?
    ensures !HasValidCache(Load(d, cfg, r, now, decode).disk, cfg, r, now)
  {
  }

  /** A valid file in a read-only directory is still served, while a save
      or a removal of it fails and leaves it as it was. */
  lemma ReadOnlyEntryStillServes<T>(d: Disk, cfg: CacheConfiguration, r: CacheResource, v: T, now: int,
                                    encode: T -> Json, decode: Json -> Option<T>)
    requires HasValidCache(d, cfg, r, now)
    requires FileName(r) !in d.faults.unreadable
    requires FileName(r) in d.faults.unwritable && FileName(r) in d.faults.unremovable
    requires decode(d.files[FileName(r)].payload).Some?
    ensures Load(d, cfg, r, now, decode) == Loaded(Ok(decode(d.files[FileName(r)].payload)), d)
    ensures Save(d, cfg, r, v, now, encode) == Stored(Err(StorageError), d)
    ensures ClearCache(d, r) == Stored(Err(StorageError), d)
  {
  }

  /** When the cache is disabled nothing is ever valid, and a save does not
      make a later load succeed. */
  lemma DisabledIsPassThrough<T>(d: Disk, cfg: CacheConfiguration, r: CacheResource, v: T, saved: int, now: int,
                                 encode: T -> Json, decode: Json -> Option<T>)
    requires !cfg.isEnabled
    ensures !HasValidCache(d, cfg, r, now)
    ensures Save(d, cfg, r, v, saved, encode).disk == d
    ensures Load(Save(d, cfg, r, v, saved, encode).disk, cfg, r, now, decode).value == Ok(None)
  {
  }

  /** Clearing one resource leaves every other resource's entry, age and
      validity as they were. */
  lemma ClearCacheLeavesOthers(d: Disk, cfg: CacheConfiguration, r: CacheResource, other: CacheResource, now: int)
    requires other != r
    ensures FileName(other) in ClearCache(d, r).disk.files <==> FileName(other) in d.files
    ensures FileName(other) in d.files ==> ClearCache(d, r).disk.files[FileName(other)] == d.files[FileName(other)]
    ensures CacheAge(ClearCache(d, r).disk, other, now) == CacheAge(d, other, now)
    ensures HasValidCache(ClearCache(d, r).disk, cfg, other, now) == HasValidCache(d, cfg, other, now)
    ensures ClearCache(d, r).outcome.Ok? ==> CacheAge(ClearCache(d, r).disk, r, now).None?
  {
    FileNameInjective(r, other);
  }

  /** Saving one resource leaves every other resource's entry untouched. */
  lemma SaveLeavesOthers<T>(d: Disk, cfg: CacheConfiguration, r: CacheResource, v: T, now: int, encode: T -> Json,
                            other: CacheResource, later: int)
    requires other != r
    ensures var after := Save(d, cfg, r, v, now, encode).disk;
            && (FileName(other) in after.files <==> FileName(other) in d.files)
            && (FileName(other) in d.files ==> after.files[FileName(other)] == d.files[FileName(other)])
    ensures CacheAge(Save(d, cfg, r, v, now, encode).disk, other, later) == CacheAge(d, other, later)
  {
    FileNameInjective(r, other);
  }

  /** The one-hour scenario: routes saved at `t` load back at once, and once
      61 minutes have passed a load is a miss that leaves no file behind. */
  lemma ShortLivedRoutesScenario(d: Disk, routes: seq<Routes.Route>, t: int)
    requires FileName(CacheResource.Routes) !in d.faults.unwritable
    requires FileName(CacheResource.Routes) !in d.faults.unreadable
    requires FileName(CacheResource.Routes) !in d.faults.unremovable
    ensures var saved := SaveRoutes(d, ShortLivedConfiguration, routes, t).disk;
            && LoadRoutes(saved, ShortLivedConfiguration, t).value == Ok(Some(routes))
            && LoadRoutes(saved, ShortLivedConfiguration, t + 61 * 60).value == Ok(None)
            && CacheAge(LoadRoutes(saved, ShortLivedConfiguration, t + 61 * 60).disk, CacheResource.Routes, t + 61 * 60).None?
  {
    RoutesPayloadRoundTrip(routes);
  }

  // ---- Typed payloads --------------------------------------------------------

  function EncodeRoutes(routes: seq<Routes.Route>): Json {
    EncodeArray(routes, Routes.RouteToJson)
  }

  function DecodeRoutes(j: Json): Option<seq<Routes.Route>> {
    DecodeArray(j, Routes.RouteFromJson)
  }

  function EncodeStops(stops: seq<Stops.Stop>): Json {
    EncodeArray(stops, Stops.StopToJson)
  }

  function DecodeStops(j: Json): Option<seq<Stops.Stop>> {
    DecodeArray(j, Stops.StopFromJson)
  }

  function EncodeTrips(trips: seq<Trips.Trip>): Json {
    EncodeArray(trips, Trips.TripToJson)
  }

  function DecodeTrips(j: Json): Option<seq<Trips.Trip>> {
    DecodeArray(j, Trips.TripFromJson)
  }

  function EncodeStopTimes(stopTimes: seq<Trips.StopTime>): Json {
    EncodeArray(stopTimes, Trips.StopTimeToJson)
  }

  function DecodeStopTimes(j: Json): Option<seq<Trips.StopTime>> {
    DecodeArray(j, Trips.StopTimeFromJson)
  }

  lemma RoutesPayloadRoundTrip(routes: seq<Routes.Route>)
    ensures DecodeRoutes(EncodeRoutes(routes)) == Some(routes)
  {
    forall i | 0 <= i < |routes| {
      Routes.RouteRoundTrip(routes[i]);
    }
    ArrayRoundTrip(routes, Routes.RouteToJson, Routes.RouteFromJson);
  }

  lemma StopsPayloadRoundTrip(stops: seq<Stops.Stop>)
    ensures DecodeStops(EncodeStops(stops)) == Some(stops)
  {
    forall i | 0 <= i < |stops| {
      Stops.StopRoundTrip(stops[i]);
    }
    ArrayRoundTrip(stops, Stops.StopToJson, Stops.StopFromJson);
  }

  lemma TripsPayloadRoundTrip(trips: seq<Trips.Trip>)
    ensures DecodeTrips(EncodeTrips(trips)) == Some(trips)
  {
    forall i | 0 <= i < |trips| {
      Trips.TripRoundTrip(trips[i]);
    }
    ArrayRoundTrip(trips, Trips.TripToJson, Trips.TripFromJson);
  }

  lemma StopTimesPayloadRoundTrip(stopTimes: seq<Trips.StopTime>)
    ensures DecodeStopTimes(EncodeStopTimes(stopTimes)) == Some(stopTimes)
  {
    forall i | 0 <= i < |stopTimes| {
      Trips.StopTimeRoundTrip(stopTimes[i]);
    }
    ArrayRoundTrip(stopTimes, Trips.StopTimeToJson, Trips.StopTimeFromJson);
  }

  // ---- Typed entry points -------------------------------------------------------

  function LoadRoutes(d: Disk, cfg: CacheConfiguration, now: int): Loaded<seq<Routes.Route>> {
    Load(d, cfg, CacheResource.Routes, now, DecodeRoutes)
  }

  function SaveRoutes(d: Disk, cfg: CacheConfiguration, routes: seq<Routes.Route>, now: int): Stored {
    Save(d, cfg, CacheResource.Routes, routes, now, EncodeRoutes)
  }

  function LoadStops(d: Disk, cfg: CacheConfiguration, now: int): Loaded<seq<Stops.Stop>> {
    Load(d, cfg, CacheResource.Stops, now, DecodeStops)
  }

  function SaveStops(d: Disk, cfg: CacheConfiguration, stops: seq<Stops.Stop>, now: int): Stored {
    Save(d, cfg, CacheResource.Stops, stops, now, EncodeStops)
  }

  function LoadTrips(d: Disk, cfg: CacheConfiguration, now: int): Loaded<seq<Trips.Trip>> {
    Load(d, cfg, CacheResource.Trips, now, DecodeTrips)
  }

  function SaveTrips(d: Disk, cfg: CacheConfiguration, trips: seq<Trips.Trip>, now: int): Stored {
    Save(d, cfg, CacheResource.Trips, trips, now, EncodeTrips)
  }

  function LoadStopTimes(d: Disk, cfg: CacheConfiguration, now: int): Loaded<seq<Trips.StopTime>> {
    Load(d, cfg, StopTimes, now, DecodeStopTimes)
  }

  function SaveStopTimes(d: Disk, cfg: CacheConfiguration, stopTimes: seq<Trips.StopTime>, now: int): Stored {
    Save(d, cfg, StopTimes, stopTimes, now, EncodeStopTimes)
  }

  function LoadStopTimesForTrip(d: Disk, cfg: CacheConfiguration, tripId: string, now: int): Loaded<seq<Trips.StopTime>> {
    Load(d, cfg, StopTimesForTrip(tripId), now, DecodeStopTimes)
  }

  function SaveStopTimesForTrip(d: Disk, cfg: CacheConfiguration, stopTimes: seq<Trips.StopTime>, tripId: string, now: int): Stored {
    Save(d, cfg, StopTimesForTrip(tripId), stopTimes, now, EncodeStopTimes)
  }

  function LoadStopTimesForStop(d: Disk, cfg: CacheConfiguration, stopId: string, now: int): Loaded<seq<Trips.StopTime>> {
    Load(d, cfg, StopTimesForStop(stopId), now, DecodeStopTimes)
  }

  function SaveStopTimesForStop(d: Disk, cfg: CacheConfiguration, stopTimes: seq<Trips.StopTime>, stopId: string, now: int): Stored {
    Save(d, cfg, StopTimesForStop(stopId), stopTimes, now, EncodeStopTimes)
  }

  /** Every typed pair loads back, within the validity window, exactly what it
      saved; for stop times this holds for all three resource kinds. */
  lemma TypedSaveThenLoad(d: Disk, cfg: CacheConfiguration, saved: int, now: int,
                          routes: seq<Routes.Route>, stops: seq<Stops.Stop>, trips: seq<Trips.Trip>,
                          stopTimes: seq<Trips.StopTime>, id: string)
    requires cfg.isEnabled && d.faults.unwritable == {} && d.faults.unreadable == {}
    requires saved <= now <= saved + cfg.validityDuration
    ensures LoadRoutes(SaveRoutes(d, cfg, routes, saved).disk, cfg, now).value == Ok(Some(routes))
    ensures LoadStops(SaveStops(d, cfg, stops, saved).disk, cfg, now).value == Ok(Some(stops))
    ensures LoadTrips(SaveTrips(d, cfg, trips, saved).disk, cfg, now).value == Ok(Some(trips))
    ensures LoadStopTimes(SaveStopTimes(d, cfg, stopTimes, saved).disk, cfg, now).value == Ok(Some(stopTimes))
    ensures LoadStopTimesForTrip(SaveStopTimesForTrip(d, cfg, stopTimes, id, saved).disk, cfg, id, now).value == Ok(Some(stopTimes))
    ensures LoadStopTimesForStop(SaveStopTimesForStop(d, cfg, stopTimes, id, saved).disk, cfg, id, now).value == Ok(Some(stopTimes))
  {
    RoutesPayloadRoundTrip(routes);
    StopsPayloadRoundTrip(stops);
    TripsPayloadRoundTrip(trips);
    StopTimesPayloadRoundTrip(stopTimes);
  }
}

=== FILE: json.dfy ===
/** An abstract JSON document and the decoding and encoding rules Swift's
    synthesized `Codable` conformances follow on it. Byte-level syntax, key
    ordering and pretty-printing are not modelled: a document is its tree. */
module Json {
  import opened Wrappers

  /** A JSON value. Numbers are kept exact; an object maps each key once. */
  datatype Json =
    | JNull
    | JBool(b: bool)
    | JNum(n: real)
    | JStr(s: string)
    | JArr(items: seq<Json>)
    | JObj(fields: map<string, Json>)

  const INT_MIN: int := -0x8000_0000_0000_0000
  const INT_MAX: int := 0x7FFF_FFFF_FFFF_FFFF

  /** Swift's `Int` on a 64-bit platform. */
  type Int64 = i: int | INT_MIN <= i <= INT_MAX

  // ---- Single values ------------------------------------------------------

  function AsString(j: Json): (r: Option<string>)
    ensures r.Some? <==> j.JStr?
    ensures r.Some? ==> r.value == j.s
  {
    if j.JStr? then Some(j.s) else None
  }

  function AsBool(j: Json): (r: Option<bool>)
    ensures r.Some? <==> j.JBool?
    ensures r.Some? ==> r.value == j.b
  {
    if j.JBool? then Some(j.b) else None
  }

  /** A `Double` accepts any JSON number. */
  function AsDouble(j: Json): (r: Option<real>)
    ensures r.Some? <==> j.JNum?
    ensures r.Some? ==> r.value == j.n
  {
    if j.JNum? then Some(j.n) else None
  }

  /** An `Int` accepts a number only when it is integral and fits in 64 bits. */
  function AsInt(j: Json): (r: Option<Int64>)
    ensures r.Some? <==> j.JNum? && j.n == j.n.Floor as real && INT_MIN <= j.n.Floor <= INT_MAX
    ensures r.Some? ==> r.value as real == j.n
  {
    if j.JNum? && j.n == j.n.Floor as real && INT_MIN <= j.n.Floor <= INT_MAX
    then Some(j.n.Floor as Int64)
    else None
  }

  function FromInt(i: int): Json {
    JNum(i as real)
  }

  lemma IntRoundTrip(i: Int64)
    ensures AsInt(FromInt(i)) == Some(i)
  {
  }

  // ---- Keyed containers ----------------------------------------------------
  //
  // `decode(_:forKey:)` fails on a missing key, on `null` and on a value of
  // the wrong type. `decodeIfPresent(_:forKey:)` reads a missing key or `null`
  // as `nil` (the inner `None`) and still fails (the outer `None`) on a present
  // value of the wrong type.

  function ReqString(o: map<string, Json>, key: string): (r: Option<string>)
    ensures r.Some? <==> key in o && o[key].JStr?
    ensures r.Some? ==> r.value == o[key].s
  {
    if key in o then AsString(o[key]) else None
  }

  function ReqInt(o: map<string, Json>, key: string): (r: Option<Int64>)
    ensures r.Some? ==> key in o && AsInt(o[key]) == r
    ensures key in o ==> r == AsInt(o[key])
  {
    if key in o then AsInt(o[key]) else None
  }

  function OptString(o: map<string, Json>, key: string): (r: Option<Option<string>>)
    ensures (key !in o || o[key] == JNull) ==> r == Some(None)
    ensures key in o && o[key].JStr? ==> r == Some(Some(o[key].s))
    ensures key in o && o[key] != JNull && !o[key].JStr? ==> r == None
  {
    if key !in o || o[key] == JNull then Some(None)
    else if o[key].JStr? then Some(Some(o[key].s))
    else None
  }

  function OptInt(o: map<string, Json>, key: string): (r: Option<Option<Int64>>)
    ensures (key !in o || o[key] == JNull) ==> r == Some(None)
    ensures key in o && o[key] != JNull ==> (r.Some? <==> AsInt(o[key]).Some?)
    ensures key in o && o[key] != JNull && r.Some? ==> r.value == AsInt(o[key])
  {
    if key !in o || o[key] == JNull then Some(None)
    else match AsInt(o[key])
      case Some(i) => Some(Some(i))
      case None => None
  }

  function OptDouble(o: map<string, Json>, key: string): (r: Option<Option<real>>)
    ensures (key !in o || o[key] == JNull) ==> r == Some(None)
    ensures key in o && o[key].JNum? ==> r == Some(Some(o[key].n))
    ensures key in o && o[key] != JNull && !o[key].JNum? ==> r == None
  {
    if key !in o || o[key] == JNull then Some(None)
    else if o[key].JNum? then Some(Some(o[key].n))
    else None
  }

  /** One key an encoder writes; `nil` values (`encodeIfPresent`) write nothing. */
  datatype Field = Field(key: string, value: Option<Json>)

  function OptStr(v: Option<string>): (r: Option<Json>)
    ensures r.Some? <==> v.Some?
    ensures r.Some? ==> r.value == JStr(v.value)
  {
    match v
    case Some(x) => Some(JStr(x))
    case None => None
  }

  function OptNum(v: Option<real>): (r: Option<Json>)
    ensures r.Some? <==> v.Some?
    ensures r.Some? ==> r.value == JNum(v.value)
  {
    match v
    case Some(x) => Some(JNum(x))
    case None => None
  }

  function OptIntJson(v: Option<Int64>): (r: Option<Json>)
    ensures r.Some? <==> v.Some?
    ensures r.Some? ==> r.value == FromInt(v.value)
  {
    match v
    case Some(x) => Some(FromInt(x))
    case None => None
  }

  predicate DistinctKeys(fs: seq<Field>)
  {
    forall i, j :: 0 <= i < j < |fs| ==> fs[i].key != fs[j].key
  }

  /** The object a keyed encoding container ends up holding. */
  function ObjectOf(fs: seq<Field>): (o: map<string, Json>)
    requires DistinctKeys(fs)
    ensures forall k :: k in o ==> exists i :: 0 <= i < |fs| && fs[i].key == k && fs[i].value.Some?
    ensures forall i :: 0 <= i < |fs| ==>
              (fs[i].key in o <==> fs[i].value.Some?) &&
              (fs[i].value.Some? ==> o[fs[i].key] == fs[i].value.value)
  {
    map i | 0 <= i < |fs| && fs[i].value.Some? :: fs[i].key := fs[i].value.value
  }

  // ---- Arrays ----------------------------------------------------------------

  function EncodeArray<T>(xs: seq<T>, enc: T -> Json): (r: Json)
    ensures r.JArr? && |r.items| == |xs|
    ensures forall i :: 0 <= i < |xs| ==> r.items[i] == enc(xs[i])
  {
    JArr(seq(|xs|, i requires 0 <= i < |xs| => enc(xs[i])))
  }

  /** Decoding `[T]`: the document must be an array and every element must
      decode; one failing element fails the whole array. */
  function DecodeArray<T>(j: Json, dec: Json -> Option<T>): (r: Option<seq<T>>)
  {
    if j.JArr? then DecodeItems(j.items, dec) else None
  }

  function DecodeItems<T>(items: seq<Json>, dec: Json -> Option<T>): (r: Option<seq<T>>)
    ensures r.Some? ==> |r.value| == |items|
    ensures r.Some? ==> forall i :: 0 <= i < |items| ==> dec(items[i]) == Some(r.value[i])
    ensures r.None? ==> exists i :: 0 <= i < |items| && dec(items[i]).None?
  {
    if |items| == 0 then Some([])
    else
      match dec(items[0])
      case None => None
      case Some(x) =>
        match DecodeItems(items[1..], dec)
        case None => None
        case Some(rest) => Some([x] + rest)
  }

  /** An array of values that each survive their own round trip survives the
      array round trip. */
  lemma {:induction false} ArrayRoundTrip<T>(xs: seq<T>, enc: T -> Json, dec: Json -> Option<T>)
    requires forall i :: 0 <= i < |xs| ==> dec(enc(xs[i])) == Some(xs[i])
    ensures DecodeArray(EncodeArray(xs, enc), dec) == Some(xs)
  {
    var items := EncodeArray(xs, enc).items;
    var r := DecodeItems(items, dec);
    assert r.Some?;
    assert r.value == xs;
  }
}

=== FILE: route.dfy ===
/** `Foli.Route` (a GTFS route), its display rules, its JSON form and the
    route-list response, which sorts the routes by id as it decodes them. */
module Routes {
  import opened Wrappers
  import opened Json
  import Text

  datatype Route = Route(
    id: string,
    shortName: string,
    longName: string,
    routeDesc: Option<string>,
    routeType: Int64,
    routeUrl: Option<string>,
    routeColor: Option<string>,
    routeTextColor: Option<string>,
    agencyId: Option<string>)

  function RouteId(r: Route): string {
    r.id
  }

  // ---- Display rules -------------------------------------------------------

  /** The long name, or the short name when there is no long name. */
  function DisplayName(r: Route): (name: string)
    ensures r.longName != "" ==> name == r.longName
    ensures r.longName == "" ==> name == r.shortName
    ensures name == r.shortName <==> r.longName == "" || r.longName == r.shortName
  {
    if r.longName != "" then r.longName else r.shortName
  }

  /** The short name, followed by `" - "` and the long name when there is one. */
  function FullDisplayName(r: Route): (name: string)
    ensures |name| >= |r.shortName| && name[..|r.shortName|] == r.shortName
    ensures |name| >= |DisplayName(r)| && name[|name| - |DisplayName(r)|..] == DisplayName(r)
    ensures r.longName == "" ==> |name| == |r.shortName|
    ensures r.longName != "" ==>
              |name| == |r.shortName| + 3 + |r.longName| && name[|r.shortName|..|r.shortName| + 3] == " - "
  {
    if r.longName == "" then r.shortName else r.shortName + " - " + r.longName
  }

  /** The two names coincide exactly when the route has no long name. */
  lemma FullDisplayNameIsDisplayNameIff(r: Route)
    ensures FullDisplayName(r) == DisplayName(r) <==> r.longName == ""
  {
    if r.longName != "" {
      assert |FullDisplayName(r)| > |DisplayName(r)|;
    }
  }

  /** The hex string handed to the colour parser: absent when the field is
      missing or empty. */
  function ColorHex(field: Option<string>): (hex: Option<string>)
    ensures hex.Some? <==> field.Some? && field.value != ""
    ensures hex.Some? ==> hex.value == field.value
  {
    match field
    case Some(h) => if h == "" then None else Some(h)
    case None => None
  }

  function Color(r: Route): Option<string> {
    ColorHex(r.routeColor)
  }

  function TextColor(r: Route): Option<string> {
    ColorHex(r.routeTextColor)
  }

  /** GTFS route type 3. */
  predicate IsBus(r: Route)
  {
    r.routeType == 3
  }

  /** GTFS route type 0. */
  predicate IsTram(r: Route)
  {
    r.routeType == 0
  }

  lemma BusAndTramExclusive(r: Route)
    ensures !(IsBus(r) && IsTram(r))
    ensures IsBus(r) <==> r.routeType == 3
    ensures IsTram(r) <==> r.routeType == 0
  {
  }

  // ---- JSON form -------------------------------------------------------------

  /** The keys the synthesized encoder writes, under the GTFS coding keys;
      `nil` optionals are left out. */
  function RouteFields(r: Route): (fs: seq<Field>)
    ensures DistinctKeys(fs)
  {
    [ Field("route_id", Some(JStr(r.id))),
      Field("route_short_name", Some(JStr(r.shortName))),
      Field("route_long_name", Some(JStr(r.longName))),
      Field("route_desc", OptStr(r.routeDesc)),
      Field("route_type", Some(FromInt(r.routeType))),
      Field("route_url", OptStr(r.routeUrl)),
      Field("route_color", OptStr(r.routeColor)),
      Field("route_text_color", OptStr(r.routeTextColor)),
      Field("agency_id", OptStr(r.agencyId)) ]
  }

  function RouteToJson(r: Route): (j: Json)
    ensures j.JObj?
  {
    JObj(ObjectOf(RouteFields(r)))
  }

  /** The synthesized decoder: four required keys, five optional ones; other
      keys are ignored. */
  function RouteFromJson(j: Json): (r: Option<Route>)
    ensures r.Some? ==> j.JObj? && ReqString(j.fields, "route_id") == Some(r.value.id)
  {
    if !j.JObj? then None
    else
      var o := j.fields;
      var id :- ReqString(o, "route_id");
      var shortName :- ReqString(o, "route_short_name");
      var longName :- ReqString(o, "route_long_name");
      var routeDesc :- OptString(o, "route_desc");
      var routeType :- ReqInt(o, "route_type");
      var routeUrl :- OptString(o, "route_url");
      var routeColor :- OptString(o, "route_color");
      var routeTextColor :- OptString(o, "route_text_color");
      var agencyId :- OptString(o, "agency_id");
      Some(Route(id, shortName, longName, routeDesc, routeType, routeUrl, routeColor, routeTextColor, agencyId))
  }

  /** What the decoder returns once each key has been read successfully. */
  lemma RouteFromObject(o: map<string, Json>, r: Route)
    requires ReqString(o, "route_id") == Some(r.id)
    requires ReqString(o, "route_short_name") == Some(r.shortName)
    requires ReqString(o, "route_long_name") == Some(r.longName)
    requires OptString(o, "route_desc") == Some(r.routeDesc)
    requires ReqInt(o, "route_type") == Some(r.routeType)
    requires OptString(o, "route_url") == Some(r.routeUrl)
    requires OptString(o, "route_color") == Some(r.routeColor)
    requires OptString(o, "route_text_color") == Some(r.routeTextColor)
    requires OptString(o, "agency_id") == Some(r.agencyId)
    ensures RouteFromJson(JObj(o)) == Some(r)
  {
  }

  lemma RouteObjectRequired(r: Route)
    ensures ReqString(RouteToJson(r).fields, "route_id") == Some(r.id)
    ensures ReqString(RouteToJson(r).fields, "route_short_name") == Some(r.shortName)
    ensures ReqString(RouteToJson(r).fields, "route_long_name") == Some(r.longName)
    ensures ReqInt(RouteToJson(r).fields, "route_type") == Some(r.routeType)
  {
    IntRoundTrip(r.routeType);
    var fs := RouteFields(r);
    assert fs[0].key == "route_id" && fs[1].key == "route_short_name" && fs[2].key == "route_long_name";
    assert fs[4].key == "route_type";
  }

  lemma RouteObjectOptional(r: Route)
    ensures OptString(RouteToJson(r).fields, "route_desc") == Some(r.routeDesc)
    ensures OptString(RouteToJson(r).fields, "route_url") == Some(r.routeUrl)
    ensures OptString(RouteToJson(r).fields, "route_color") == Some(r.routeColor)
    ensures OptString(RouteToJson(r).fields, "route_text_color") == Some(r.routeTextColor)
    ensures OptString(RouteToJson(r).fields, "agency_id") == Some(r.agencyId)
  {
    var fs := RouteFields(r);
    assert fs[3].key == "route_desc" && fs[5].key == "route_url";
    assert fs[6].key == "route_color" && fs[7].key == "route_text_color" && fs[8].key == "agency_id";
  }

  /** Every field survives, absent optionals included. */
  lemma RouteRoundTrip(r: Route)
    ensures RouteFromJson(RouteToJson(r)) == Some(r)
  {
    RouteObjectRequired(r);
    RouteObjectOptional(r);
    RouteFromObject(RouteToJson(r).fields, r);
  }

  // ---- Route list response --------------------------------------------------

  /** `FoliRouteList.encode`: an array of route objects in list order. */
  function EncodeRouteList(routes: seq<Route>): (j: Json)
    ensures j.JArr? && |j.items| == |routes|
    ensures forall i :: 0 <= i < |routes| ==> RouteFromJson(j.items[i]) == Some(routes[i])
  {
    forall i | 0 <= i < |routes| {
      RouteRoundTrip(routes[i]);
    }
    EncodeArray(routes, RouteToJson)
  }

  /** `FoliRouteList.init(from:)`: decode the array, then sort it by id. */
  function DecodeRouteList(j: Json): (r: Option<seq<Route>>)
    ensures r.Some? <==> DecodeArray(j, RouteFromJson).Some?
    ensures r.Some? ==> multiset(r.value) == multiset(DecodeArray(j, RouteFromJson).value)
    ensures r.Some? ==> Text.SortedBy(r.value, RouteId)
  {
    var routes :- DecodeArray(j, RouteFromJson);
    Some(Text.SortBy(routes, RouteId))
  }

  /** Encoding then decoding a route list gives back the same routes, every
      field intact, reordered by id. */
  lemma RouteListRoundTrip(routes: seq<Route>)
    ensures DecodeRouteList(EncodeRouteList(routes)).Some?
    ensures multiset(DecodeRouteList(EncodeRouteList(routes)).value) == multiset(routes)
    ensures Text.SortedBy(DecodeRouteList(EncodeRouteList(routes)).value, RouteId)
  {
    forall i | 0 <= i < |routes| {
      RouteRoundTrip(routes[i]);
    }
    ArrayRoundTrip(routes, RouteToJson, RouteFromJson);
  }
}

=== FILE: stop.dfy ===
/** `Foli.Stop` (a GTFS stop), its display rules, its own JSON form (used when
    stops are cached) and the stop-list response, whose wire format is an
    object keyed by stop id. */
module Stops {
  import opened Wrappers
  import opened Json
  import Text

  datatype Stop = Stop(
    id: string,
    stopName: string,
    stopCode: Option<string>,
    stopLat: Option<real>,
    stopLon: Option<real>,
    zoneId: Option<string>,
    locationType: Option<Int64>,
    parentStation: Option<string>,
    wheelchairBoarding: Option<Int64>)

  datatype Coordinate = Coordinate(latitude: real, longitude: real)

  // ---- Display rules -------------------------------------------------------

  predicate HasLocation(s: Stop)
  {
    s.stopLat.Some? && s.stopLon.Some?
  }

  /** The coordinate, present only when both components are. */
  function Location(s: Stop): (c: Option<Coordinate>)
    ensures c.Some? <==> HasLocation(s)
    ensures c.Some? ==> c.value == Coordinate(s.stopLat.value, s.stopLon.value)
  {
    match (s.stopLat, s.stopLon)
    case (Some(lat), Some(lon)) => Some(Coordinate(lat, lon))
    case _ => None
  }

  /** `"<code> <name>"` when the stop has a non-empty code, the bare name
      otherwise. */
  function DisplayName(s: Stop): (name: string)
    ensures |name| >= |s.stopName| && name[|name| - |s.stopName|..] == s.stopName
    ensures name == s.stopName <==> s.stopCode.None? || s.stopCode.value == ""
    ensures s.stopCode.Some? && s.stopCode.value != "" ==>
              |name| > |s.stopCode.value| && name[..|s.stopCode.value|] == s.stopCode.value &&
              name[|s.stopCode.value|] == ' '
    ensures s.stopCode.Some? && s.stopCode.value != "" ==> |name| == |s.stopCode.value| + 1 + |s.stopName|
  {
    match s.stopCode
    case Some(code) =>
      if code != "" then
        var name := code + " " + s.stopName;
        assert |name| > |s.stopName|;
        name
      else s.stopName
    case None => s.stopName
  }

  // ---- A stop's own JSON form (synthesized Codable) ------------------------

  function StopFields(s: Stop): (fs: seq<Field>)
    ensures DistinctKeys(fs)
  {
    [ Field("id", Some(JStr(s.id))),
      Field("stop_name", Some(JStr(s.stopName))),
      Field("stop_code", OptStr(s.stopCode)),
      Field("stop_lat", OptNum(s.stopLat)),
      Field("stop_lon", OptNum(s.stopLon)),
      Field("zone_id", OptStr(s.zoneId)),
      Field("location_type", OptIntJson(s.locationType)),
      Field("parent_station", OptStr(s.parentStation)),
      Field("wheelchair_boarding", OptIntJson(s.wheelchairBoarding)) ]
  }

  function StopToJson(s: Stop): (j: Json)
    ensures j.JObj?
  {
    JObj(ObjectOf(StopFields(s)))
  }

  function StopFromJson(j: Json): (r: Option<Stop>)
    ensures r.Some? ==> j.JObj?
  {
    if !j.JObj? then None
    else
      var o := j.fields;
      var id :- ReqString(o, "id");
      var stopName :- ReqString(o, "stop_name");
      var stopCode :- OptString(o, "stop_code");
      var stopLat :- OptDouble(o, "stop_lat");
      var stopLon :- OptDouble(o, "stop_lon");
      var zoneId :- OptString(o, "zone_id");
      var locationType :- OptInt(o, "location_type");
      var parentStation :- OptString(o, "parent_station");
      var wheelchairBoarding :- OptInt(o, "wheelchair_boarding");
      Some(Stop(id, stopName, stopCode, stopLat, stopLon, zoneId, locationType, parentStation, wheelchairBoarding))
  }

  lemma StopFromObject(o: map<string, Json>, s: Stop)
    requires ReqString(o, "id") == Some(s.id)
    requires ReqString(o, "stop_name") == Some(s.stopName)
    requires OptString(o, "stop_code") == Some(s.stopCode)
    requires OptDouble(o, "stop_lat") == Some(s.stopLat)
    requires OptDouble(o, "stop_lon") == Some(s.stopLon)
    requires OptString(o, "zone_id") == Some(s.zoneId)
    requires OptInt(o, "location_type") == Some(s.locationType)
    requires OptString(o, "parent_station") == Some(s.parentStation)
    requires OptInt(o, "wheelchair_boarding") == Some(s.wheelchairBoarding)
    ensures StopFromJson(JObj(o)) == Some(s)
  {
  }

  lemma StopObjectStrings(s: Stop)
    ensures ReqString(StopToJson(s).fields, "id") == Some(s.id)
    ensures ReqString(StopToJson(s).fields, "stop_name") == Some(s.stopName)
    ensures OptString(StopToJson(s).fields, "stop_code") == Some(s.stopCode)
    ensures OptString(StopToJson(s).fields, "zone_id") == Some(s.zoneId)
    ensures OptString(StopToJson(s).fields, "parent_station") == Some(s.parentStation)
  {
    var fs := StopFields(s);
    assert fs[0].key == "id" && fs[1].key == "stop_name" && fs[2].key == "stop_code";
    assert fs[5].key == "zone_id" && fs[7].key == "parent_station";
  }

  lemma StopObjectNumbers(s: Stop)
    ensures OptDouble(StopToJson(s).fields, "stop_lat") == Some(s.stopLat)
    ensures OptDouble(StopToJson(s).fields, "stop_lon") == Some(s.stopLon)
    ensures OptInt(StopToJson(s).fields, "location_type") == Some(s.locationType)
    ensures OptInt(StopToJson(s).fields, "wheelchair_boarding") == Some(s.wheelchairBoarding)
  {
    var fs := StopFields(s);
    assert fs[3].key == "stop_lat" && fs[4].key == "stop_lon";
    assert fs[6].key == "location_type" && fs[8].key == "wheelchair_boarding";
    if s.locationType.Some? {
      IntRoundTrip(s.locationType.value);
    }
    if s.wheelchairBoarding.Some? {
      IntRoundTrip(s.wheelchairBoarding.value);
    }
  }

  /** A stop's own JSON form keeps every field, coordinates included. */
  lemma StopRoundTrip(s: Stop)
    ensures StopFromJson(StopToJson(s)) == Some(s)
  {
    StopObjectStrings(s);
    StopObjectNumbers(s);
    StopFromObject(StopToJson(s).fields, s);
  }

  // ---- Stop-list response --------------------------------------------------

  /** The stop with the given id built from one entry of the response: the
      five keys the response carries are read (`stop_name` required, the rest
      optional), and the three fields it does not carry are left `nil`. */
  function EntryToStop(id: string, j: Json): (r: Option<Stop>)
    ensures r.Some? ==> j.JObj? && r.value.id == id
    ensures r.Some? ==> ReqString(j.fields, "stop_name") == Some(r.value.stopName)
    ensures r.Some? ==> r.value.locationType.None? && r.value.parentStation.None? && r.value.wheelchairBoarding.None?
    ensures r.Some? <==> && j.JObj?
                         && ReqString(j.fields, "stop_name").Some?
                         && OptString(j.fields, "stop_code").Some?
                         && OptDouble(j.fields, "stop_lat").Some?
                         && OptDouble(j.fields, "stop_lon").Some?
                         && OptString(j.fields, "zone_id").Some?
    ensures r.Some? ==> && Some(r.value.stopCode) == OptString(j.fields, "stop_code")
                        && Some(r.value.stopLat) == OptDouble(j.fields, "stop_lat")
                        && Some(r.value.stopLon) == OptDouble(j.fields, "stop_lon")
                        && Some(r.value.zoneId) == OptString(j.fields, "zone_id")
  {
    if !j.JObj? then None
    else
      var o := j.fields;
      var stopName :- ReqString(o, "stop_name");
      var stopCode :- OptString(o, "stop_code");
      var stopLat :- OptDouble(o, "stop_lat");
      var stopLon :- OptDouble(o, "stop_lon");
      var zoneId :- OptString(o, "zone_id");
      Some(Stop(id, stopName, stopCode, stopLat, stopLon, zoneId, None, None, None))
  }

  function DecodeEntries(o: map<string, Json>, keys: seq<string>): (r: Option<seq<Stop>>)
    requires forall i :: 0 <= i < |keys| ==> keys[i] in o
    ensures r.Some? ==> |r.value| == |keys|
    ensures r.Some? ==> forall i :: 0 <= i < |keys| ==> EntryToStop(keys[i], o[keys[i]]) == Some(r.value[i])
    ensures r.None? ==> exists i :: 0 <= i < |keys| && EntryToStop(keys[i], o[keys[i]]).None?
  {
    if |keys| == 0 then Some([])
    else
      var first :- EntryToStop(keys[0], o[keys[0]]);
      var rest :- DecodeEntries(o, keys[1..]);
      Some([first] + rest)
  }

  /** `FoliStopList.init(from:)`: the document must be an object; each key is
      a stop id and each value must decode; the stops come out sorted by id. */
  function DecodeStopList(j: Json): (r: Option<seq<Stop>>)
    ensures j.JObj? && (forall k :: k in j.fields ==> EntryToStop(k, j.fields[k]).Some?) <==> r.Some?
    ensures r.Some? ==> |r.value| == |j.fields|
    ensures r.Some? ==> forall k :: k in j.fields <==> exists i :: 0 <= i < |r.value| && r.value[i].id == k
    ensures r.Some? ==> forall i :: 0 <= i < |r.value| ==> EntryToStop(r.value[i].id, j.fields[r.value[i].id]) == Some(r.value[i])
    ensures r.Some? ==> forall i, k :: 0 <= i < k < |r.value| ==> Text.Less(r.value[i].id, r.value[k].id)
  {
    if !j.JObj? then None
    else
      var keys := Text.SortedKeys(j.fields.Keys);
      var r := DecodeEntries(j.fields, keys);
      if r.None? then
        var i :| 0 <= i < |keys| && EntryToStop(keys[i], j.fields[keys[i]]).None?;
        None
      else
        DecodedStopsFollowKeys(j.fields, keys, r.value);
        r
  }

  /** Decoding the entries in sorted key order yields one stop per key, in
      that order. */
  lemma DecodedStopsFollowKeys(o: map<string, Json>, keys: seq<string>, stops: seq<Stop>)
    requires |keys| == |o|
    requires forall x :: x in o <==> x in keys
    requires Text.StrictlySorted(keys)
    requires DecodeEntries(o, keys) == Some(stops)
    ensures |stops| == |o|
    ensures forall i :: 0 <= i < |stops| ==> stops[i].id == keys[i]
    ensures forall k :: k in o ==> EntryToStop(k, o[k]).Some?
    ensures forall k :: k in o <==> exists i :: 0 <= i < |stops| && stops[i].id == k
    ensures forall i :: 0 <= i < |stops| ==> EntryToStop(stops[i].id, o[stops[i].id]) == Some(stops[i])
    ensures forall i, k :: 0 <= i < k < |stops| ==> Text.Less(stops[i].id, stops[k].id)
  {
    assert forall i :: 0 <= i < |keys| ==> stops[i].id == keys[i];
  }

  lemma EmptyObjectDecodes()
    ensures DecodeStopList(JObj(map[])) == Some([])
  {
  }

  lemma ArrayDoesNotDecode(items: seq<Json>)
    ensures DecodeStopList(JArr(items)).None?
  {
  }

  predicate UniqueIds(stops: seq<Stop>)
  {
    forall i, j :: 0 <= i < j < |stops| ==> stops[i].id != stops[j].id
  }

  /** An object keyed by stop id, each value the stop's entry. */
  function EncodeListWith(stops: seq<Stop>, entry: Stop -> Json): (j: Json)
    requires UniqueIds(stops)
    ensures j.JObj?
    ensures j.fields.Keys == set i | 0 <= i < |stops| :: stops[i].id
    ensures forall i :: 0 <= i < |stops| ==> j.fields[stops[i].id] == entry(stops[i])
  {
    JObj(map i | 0 <= i < |stops| :: stops[i].id := entry(stops[i]))
  }

  /** What survives the stop-list format: the three fields it does not carry
      come back `nil`. */
  function Listed(s: Stop): Stop {
    s.(locationType := None, parentStation := None, wheelchairBoarding := None)
  }

  lemma {:induction false} UniqueIdsCount(stops: seq<Stop>)
    requires UniqueIds(stops)
    ensures |set i | 0 <= i < |stops| :: stops[i].id| == |stops|
  {
    if |stops| > 0 {
      var init := stops[..|stops| - 1];
      UniqueIdsCount(init);
      var last := stops[|stops| - 1].id;
      var all := set i | 0 <= i < |stops| :: stops[i].id;
      var before := set i | 0 <= i < |init| :: init[i].id;
      assert all == before + {last} by {
        forall k | k in all
          ensures k in before + {last}
        {
          var i :| 0 <= i < |stops| && stops[i].id == k;
          if i < |init| {
            assert init[i].id == k;
          }
        }
      }
      assert last !in before;
    }
  }

  /** If every entry decodes back to its stop, the whole list comes back:
      as many stops as went in, each one present. */
  lemma ListRoundTripWith(stops: seq<Stop>, entry: Stop -> Json)
    requires UniqueIds(stops)
    requires forall i :: 0 <= i < |stops| ==> EntryToStop(stops[i].id, entry(stops[i])) == Some(Listed(stops[i]))
    ensures DecodeStopList(EncodeListWith(stops, entry)).Some?
    ensures |DecodeStopList(EncodeListWith(stops, entry)).value| == |stops|
    ensures forall i :: 0 <= i < |stops| ==> Listed(stops[i]) in DecodeStopList(EncodeListWith(stops, entry)).value
  {
    var j := EncodeListWith(stops, entry);
    forall k | k in j.fields
      ensures EntryToStop(k, j.fields[k]).Some?
    {
      var i :| 0 <= i < |stops| && stops[i].id == k;
    }
    var r := DecodeStopList(j).value;
    UniqueIdsCount(stops);
    forall i | 0 <= i < |stops|
      ensures Listed(stops[i]) in r
    {
      assert stops[i].id in j.fields;
      var k :| 0 <= k < |r| && r[k].id == stops[i].id;
      assert EntryToStop(r[k].id, j.fields[r[k].id]) == Some(r[k]);
    }
  }

  /** The value `FoliStopList.encode` writes for one stop: a string-to-string
      object with `stop_name` always and the other four keys when present.
      Coordinates go through `String(Double)`, whose text is `showDouble`. */
  function EntryFields(s: Stop, showDouble: real -> string): (fs: seq<Field>)
    ensures DistinctKeys(fs)
  {
    [ Field("stop_name", Some(JStr(s.stopName))),
      Field("stop_code", OptStr(s.stopCode)),
      Field("stop_lat", if s.stopLat.Some? then Some(JStr(showDouble(s.stopLat.value))) else None),
      Field("stop_lon", if s.stopLon.Some? then Some(JStr(showDouble(s.stopLon.value))) else None),
      Field("zone_id", OptStr(s.zoneId)) ]
  }

  function Entry(s: Stop, showDouble: real -> string): Json {
    JObj(ObjectOf(EntryFields(s, showDouble)))
  }

  /** `FoliStopList.encode`: an object keyed by stop id. Building it with
      `Dictionary(uniqueKeysWithValues:)` traps on a repeated id. */
  function EncodeStopList(stops: seq<Stop>, showDouble: real -> string): (j: Json)
    requires UniqueIds(stops)
  {
    EncodeListWith(stops, s => Entry(s, showDouble))
  }

  lemma EntryFromObject(id: string, o: map<string, Json>, s: Stop)
    requires ReqString(o, "stop_name") == Some(s.stopName)
    requires OptString(o, "stop_code") == Some(s.stopCode)
    requires OptDouble(o, "stop_lat") == Some(s.stopLat)
    requires OptDouble(o, "stop_lon") == Some(s.stopLon)
    requires OptString(o, "zone_id") == Some(s.zoneId)
    ensures EntryToStop(id, JObj(o)) == Some(Listed(s.(id := id)))
  {
  }

  /** A stop without coordinates survives its stop-list entry, less the three
      fields the format does not carry. */
  lemma EntryRoundTrip(s: Stop, showDouble: real -> string)
    requires s.stopLat.None? && s.stopLon.None?
    ensures EntryToStop(s.id, Entry(s, showDouble)) == Some(Listed(s))
  {
    var fs := EntryFields(s, showDouble);
    assert fs[0].key == "stop_name" && fs[1].key == "stop_code" && fs[2].key == "stop_lat";
    assert fs[3].key == "stop_lon" && fs[4].key == "zone_id";
    EntryFromObject(s.id, ObjectOf(fs), s);
  }

  /** Stops carrying no coordinates survive an encode/decode round trip: the
      same number of stops comes back, each one equal to the original apart
      from the three fields the format does not carry. */
  lemma StopListRoundTrip(stops: seq<Stop>, showDouble: real -> string)
    requires UniqueIds(stops)
    requires forall i :: 0 <= i < |stops| ==> stops[i].stopLat.None? && stops[i].stopLon.None?
    ensures DecodeStopList(EncodeStopList(stops, showDouble)).Some?
    ensures |DecodeStopList(EncodeStopList(stops, showDouble)).value| == |stops|
    ensures forall i :: 0 <= i < |stops| ==> Listed(stops[i]) in DecodeStopList(EncodeStopList(stops, showDouble)).value
  {
    forall i | 0 <= i < |stops| {
      EntryRoundTrip(stops[i], showDouble);
    }
    ListRoundTripWith(stops, s => Entry(s, showDouble));
  }

  /** A coordinate written as a JSON string is rejected by the entry decoder. */
  lemma CoordinateEntryRejected(s: Stop, showDouble: real -> string)
    requires s.stopLat.Some? || s.stopLon.Some?
    ensures EntryToStop(s.id, Entry(s, showDouble)).None?
  {
    var fs := EntryFields(s, showDouble);
    assert fs[2].key == "stop_lat" && fs[3].key == "stop_lon";
    var o := ObjectOf(fs);
    if s.stopLat.Some? {
      assert OptDouble(o, "stop_lat").None?;
    } else {
      assert OptDouble(o, "stop_lon").None?;
    }
  }

  /** As written, any stop with a coordinate makes the encoded list
      undecodable: the coordinate is written as a JSON string, and the
      decoder accepts only a number there. */
  lemma CoordinateBreaksRoundTrip(stops: seq<Stop>, showDouble: real -> string, i: nat)
    requires UniqueIds(stops)
    requires i < |stops| && (stops[i].stopLat.Some? || stops[i].stopLon.Some?)
    ensures DecodeStopList(EncodeStopList(stops, showDouble)).None?
  {
    var j := EncodeStopList(stops, showDouble);
    CoordinateEntryRejected(stops[i], showDouble);
    assert stops[i].id in j.fields;
  }

  /** The entry with coordinates written as JSON numbers, as the decoder reads
      them. */
  function FixedEntryFields(s: Stop): (fs: seq<Field>)
    ensures DistinctKeys(fs)
  {
    [ Field("stop_name", Some(JStr(s.stopName))),
      Field("stop_code", OptStr(s.stopCode)),
      Field("stop_lat", OptNum(s.stopLat)),
      Field("stop_lon", OptNum(s.stopLon)),
      Field("zone_id", OptStr(s.zoneId)) ]
  }

  function FixedEntry(s: Stop): Json {
    JObj(ObjectOf(FixedEntryFields(s)))
  }

  function EncodeStopListFixed(stops: seq<Stop>): (j: Json)
    requires UniqueIds(stops)
  {
    EncodeListWith(stops, FixedEntry)
  }

  lemma FixedEntryRoundTrip(s: Stop)
    ensures EntryToStop(s.id, FixedEntry(s)) == Some(Listed(s))
  {
    var fs := FixedEntryFields(s);
    assert fs[0].key == "stop_name" && fs[1].key == "stop_code" && fs[2].key == "stop_lat";
    assert fs[3].key == "stop_lon" && fs[4].key == "zone_id";
    EntryFromObject(s.id, ObjectOf(fs), s);
  }

  /** With coordinates written as numbers, every list of stops survives the
      round trip, coordinates included. */
  lemma FixedStopListRoundTrip(stops: seq<Stop>)
    requires UniqueIds(stops)
    ensures DecodeStopList(EncodeStopListFixed(stops)).Some?
    ensures |DecodeStopList(EncodeStopListFixed(stops)).value| == |stops|
    ensures forall i :: 0 <= i < |stops| ==> Listed(stops[i]) in DecodeStopList(EncodeStopListFixed(stops)).value
  {
    forall i | 0 <= i < |stops| {
      FixedEntryRoundTrip(stops[i]);
    }
    ListRoundTripWith(stops, FixedEntry);
  }
}

=== FILE: text.dfy ===
/** String utilities the models share: the ordering Swift's `<` gives on
    strings (taken here as lexicographic order on characters), a stable sort by
    a string key, the sorted key list of a dictionary, and decimal rendering of
    integers as string interpolation produces it. */
module Text {

  // ---- Lexicographic order -------------------------------------------------

  predicate Less(a: string, b: string)
  {
    if |a| == 0 then |b| > 0
    else if |b| == 0 then false
    else if a[0] == b[0] then Less(a[1..], b[1..])
    else a[0] < b[0]
  }

  predicate LessEq(a: string, b: string)
  {
    a == b || Less(a, b)
  }

  lemma {:induction false} LessIrreflexive(a: string)
    ensures !Less(a, a)
  {
    if |a| > 0 {
      LessIrreflexive(a[1..]);
    }
  }

  lemma {:induction false} LessTransitive(a: string, b: string, c: string)
    requires Less(a, b) && Less(b, c)
    ensures Less(a, c)
  {
    if |a| > 0 && |b| > 0 && |c| > 0 && a[0] == b[0] && b[0] == c[0] {
      LessTransitive(a[1..], b[1..], c[1..]);
    }
  }

  /** Exactly one of `a < b`, `a == b`, `b < a` holds. */
  lemma {:induction false} LessTrichotomy(a: string, b: string)
    ensures Less(a, b) || a == b || Less(b, a)
    ensures !(Less(a, b) && Less(b, a))
  {
    if |a| > 0 && |b| > 0 && a[0] == b[0] {
      LessTrichotomy(a[1..], b[1..]);
      if a[1..] == b[1..] {
        assert a == [a[0]] + a[1..] && b == [b[0]] + b[1..];
      }
    }
  }

  lemma LessEqAntisymmetric()
    ensures forall a, b :: LessEq(a, b) && LessEq(b, a) ==> a == b
  {
    forall a, b | LessEq(a, b) && LessEq(b, a)
      ensures a == b
    {
      LessTrichotomy(a, b);
    }
  }

  // ---- Stable sort by a string key -----------------------------------------

  ghost predicate SortedBy<T>(xs: seq<T>, key: T -> string)
  {
    forall i, j :: 0 <= i < j < |xs| ==> LessEq(key(xs[i]), key(xs[j]))
  }

  /** Puts `x` before the first element whose key is not below `x`'s. */
  function Insert<T>(x: T, xs: seq<T>, key: T -> string): (r: seq<T>)
    requires SortedBy(xs, key)
    ensures multiset(r) == multiset(xs) + multiset{x}
    ensures SortedBy(r, key)
    decreases |xs|
  {
    if |xs| == 0 then [x]
    else if !Less(key(xs[0]), key(x)) then
      LessTrichotomy(key(xs[0]), key(x));
      InsertFront(x, xs, key);
      [x] + xs
    else
      var rest := Insert(x, xs[1..], key);
      InsertBehind(x, xs, rest, key);
      assert xs == [xs[0]] + xs[1..];
      [xs[0]] + rest
  }

  lemma InsertFront<T>(x: T, xs: seq<T>, key: T -> string)
    requires |xs| > 0 && SortedBy(xs, key) && LessEq(key(x), key(xs[0]))
    ensures SortedBy([x] + xs, key)
  {
    var r := [x] + xs;
    forall i, j | 0 <= i < j < |r|
      ensures LessEq(key(r[i]), key(r[j]))
    {
      if i == 0 && j > 1 {
        if Less(key(x), key(xs[0])) && Less(key(xs[0]), key(xs[j - 1])) {
          LessTransitive(key(x), key(xs[0]), key(xs[j - 1]));
        }
      }
    }
  }

  lemma InsertBehind<T>(x: T, xs: seq<T>, rest: seq<T>, key: T -> string)
    requires |xs| > 0 && SortedBy(xs, key) && Less(key(xs[0]), key(x))
    requires SortedBy(rest, key)
    requires multiset(rest) == multiset(xs[1..]) + multiset{x}
    ensures SortedBy([xs[0]] + rest, key)
  {
    var r := [xs[0]] + rest;
    forall j | 0 < j < |r|
      ensures LessEq(key(xs[0]), key(r[j]))
    {
      assert r[j] in multiset(rest);
      assert r[j] == x || r[j] in multiset(xs[1..]);
      if r[j] != x {
        var k :| 1 <= k < |xs| && xs[k] == r[j];
      }
    }
  }

  /** Insertion sort; elements with equal keys keep their relative order. */
  function SortBy<T>(xs: seq<T>, key: T -> string): (r: seq<T>)
    ensures multiset(r) == multiset(xs)
    ensures |r| == |xs|
    ensures SortedBy(r, key)
  {
    if |xs| == 0 then []
    else
      assert xs == [xs[0]] + xs[1..];
      Insert(xs[0], SortBy(xs[1..], key), key)
  }

  // ---- Sorted keys of a dictionary -----------------------------------------

  predicate IsLeast(m: string, s: set<string>)
  {
    m in s && forall x :: x in s ==> LessEq(m, x)
  }

  lemma {:induction false} LeastExists(s: set<string>)
    requires s != {}
    ensures exists m :: IsLeast(m, s)
    decreases |s|
  {
    var x :| x in s;
    if s - {x} == {} {
      assert s == {x};
      assert IsLeast(x, s);
    } else {
      LeastExists(s - {x});
      var m :| IsLeast(m, s - {x});
      LessTrichotomy(m, x);
      if Less(m, x) {
        assert IsLeast(m, s);
      } else {
        forall y | y in s
          ensures LessEq(x, y)
        {
          if y != x && y != m && x != m {
            assert y in s - {x};
            LessTransitive(x, m, y);
          }
        }
        assert IsLeast(x, s);
      }
    }
  }

  ghost predicate StrictlySorted(xs: seq<string>)
  {
    forall i, j :: 0 <= i < j < |xs| ==> Less(xs[i], xs[j])
  }

  /** The keys of a dictionary in ascending order, each once. */
  function SortedKeys(s: set<string>): (r: seq<string>)
    ensures |r| == |s|
    ensures forall x :: x in s <==> x in r
    ensures StrictlySorted(r)
    decreases |s|
  {
    if s == {} then []
    else
      LeastExists(s);
      LessEqAntisymmetric();
      var m :| IsLeast(m, s);
      var rest := SortedKeys(s - {m});
      assert forall j :: 0 <= j < |rest| ==> Less(m, rest[j]) by {
        forall j | 0 <= j < |rest|
          ensures Less(m, rest[j])
        {
          assert rest[j] in s - {m};
        }
      }
      [m] + rest
  }

  // ---- Decimal rendering ---------------------------------------------------

  predicate IsDigit(c: char)
  {
    '0' <= c <= '9'
  }

  function DigitChar(d: nat): (c: char)
    requires d < 10
    ensures IsDigit(c)
    ensures c == '0' <==> d == 0
  {
    ['0', '1', '2', '3', '4', '5', '6', '7', '8', '9'][d]
  }

  function DigitValue(c: char): (d: nat)
    requires IsDigit(c)
    ensures d < 10
  {
    (c as int - '0' as int) as nat
  }

  lemma DigitRoundTrip(d: nat)
    requires d < 10
    ensures DigitValue(DigitChar(d)) == d
  {
  }

  /** A decimal numeral as Swift prints a non-negative integer: digits only,
      and no leading zero unless the numeral is `"0"`. */
  predicate IsNumeral(s: string)
  {
    && |s| > 0
    && (forall i :: 0 <= i < |s| ==> IsDigit(s[i]))
    && (s[0] == '0' ==> |s| == 1)
  }

  /** `"\(n)"` for a non-negative integer: no sign, no leading zeros. */
  function NatToString(n: nat): (r: string)
    ensures IsNumeral(r)
    ensures r[0] == '0' <==> n == 0
  {
    if n < 10 then [DigitChar(n)]
    else NatToString(n / 10) + [DigitChar(n % 10)]
  }

  /** The value of a non-empty run of decimal digits. */
  function ParseDigits(s: string): (n: nat)
    requires |s| > 0
    requires forall i :: 0 <= i < |s| ==> IsDigit(s[i])
  {
    if |s| == 1 then DigitValue(s[0])
    else ParseDigits(s[..|s| - 1]) * 10 + DigitValue(s[|s| - 1])
  }

  lemma CharDigitRoundTrip(c: char)
    requires IsDigit(c)
    ensures DigitChar(DigitValue(c)) == c
  {
    var d := DigitValue(c);
    assert c == (d + '0' as int) as char;
  }

  /** A numeral is the rendering of its own value: parsing is injective on
      numerals, and `NatToString` produces every one of them. */
  lemma {:induction false} NumeralRoundTrip(s: string)
    requires IsNumeral(s)
    ensures NatToString(ParseDigits(s)) == s
  {
    CharDigitRoundTrip(s[|s| - 1]);
    if |s| > 1 {
      var p := s[..|s| - 1];
      assert p[0] == s[0];
      NumeralRoundTrip(p);
      var n := ParseDigits(s);
      assert ParseDigits(p) != 0;
      assert n / 10 == ParseDigits(p) && n % 10 == DigitValue(s[|s| - 1]);
      assert s == p + [s[|s| - 1]];
    }
  }

  lemma {:induction false} NatToStringRoundTrip(n: nat)
    ensures ParseDigits(NatToString(n)) == n
  {
    DigitRoundTrip(n % 10);
    if n >= 10 {
      NatToStringRoundTrip(n / 10);
      var s := NatToString(n);
      assert s[..|s| - 1] == NatToString(n / 10);
    }
  }
}

=== FILE: trip.dfy ===
/** `Foli.Trip` and `Foli.StopTime`, as far as the cache needs them: their
    fields and the JSON form their synthesized `Codable` conformances give
    them. Their `id` is a fresh `UUID` that is not among the coding keys, so it
    is not part of the model. */
module Trips {
  import opened Wrappers
  import opened Json

  datatype Trip = Trip(
    serviceId: string,
    tripId: string,
    tripHeadsign: string,
    directionId: Int64,
    blockId: string,
    shapeId: string,
    wheelchairAccessible: Int64,
    bikesAllowed: Int64)

  function TripFields(t: Trip): (fs: seq<Field>)
    ensures DistinctKeys(fs)
  {
    [ Field("service_id", Some(JStr(t.serviceId))),
      Field("trip_id", Some(JStr(t.tripId))),
      Field("trip_headsign", Some(JStr(t.tripHeadsign))),
      Field("direction_id", Some(FromInt(t.directionId))),
      Field("block_id", Some(JStr(t.blockId))),
      Field("shape_id", Some(JStr(t.shapeId))),
      Field("wheelchair_accessible", Some(FromInt(t.wheelchairAccessible))),
      Field("bikes_allowed", Some(FromInt(t.bikesAllowed))) ]
  }

  function TripToJson(t: Trip): (j: Json)
    ensures j.JObj?
  {
    JObj(ObjectOf(TripFields(t)))
  }

  function TripFromJson(j: Json): (r: Option<Trip>)
    ensures r.Some? ==> j.JObj?
  {
    if !j.JObj? then None
    else
      var o := j.fields;
      var serviceId :- ReqString(o, "service_id");
      var tripId :- ReqString(o, "trip_id");
      var tripHeadsign :- ReqString(o, "trip_headsign");
      var directionId :- ReqInt(o, "direction_id");
      var blockId :- ReqString(o, "block_id");
      var shapeId :- ReqString(o, "shape_id");
      var wheelchairAccessible :- ReqInt(o, "wheelchair_accessible");
      var bikesAllowed :- ReqInt(o, "bikes_allowed");
      Some(Trip(serviceId, tripId, tripHeadsign, directionId, blockId, shapeId, wheelchairAccessible, bikesAllowed))
  }

  lemma TripFromObject(o: map<string, Json>, t: Trip)
    requires ReqString(o, "service_id") == Some(t.serviceId)
    requires ReqString(o, "trip_id") == Some(t.tripId)
    requires ReqString(o, "trip_headsign") == Some(t.tripHeadsign)
    requires ReqInt(o, "direction_id") == Some(t.directionId)
    requires ReqString(o, "block_id") == Some(t.blockId)
    requires ReqString(o, "shape_id") == Some(t.shapeId)
    requires ReqInt(o, "wheelchair_accessible") == Some(t.wheelchairAccessible)
    requires ReqInt(o, "bikes_allowed") == Some(t.bikesAllowed)
    ensures TripFromJson(JObj(o)) == Some(t)
  {
  }

  lemma TripObjectFields(t: Trip)
    ensures ReqString(TripToJson(t).fields, "service_id") == Some(t.serviceId)
    ensures ReqString(TripToJson(t).fields, "trip_id") == Some(t.tripId)
    ensures ReqString(TripToJson(t).fields, "trip_headsign") == Some(t.tripHeadsign)
    ensures ReqInt(TripToJson(t).fields, "direction_id") == Some(t.directionId)
    ensures ReqString(TripToJson(t).fields, "block_id") == Some(t.blockId)
    ensures ReqString(TripToJson(t).fields, "shape_id") == Some(t.shapeId)
    ensures ReqInt(TripToJson(t).fields, "wheelchair_accessible") == Some(t.wheelchairAccessible)
    ensures ReqInt(TripToJson(t).fields, "bikes_allowed") == Some(t.bikesAllowed)
  {
    IntRoundTrip(t.directionId);
    IntRoundTrip(t.wheelchairAccessible);
    IntRoundTrip(t.bikesAllowed);
    var fs := TripFields(t);
    assert fs[0].key == "service_id" && fs[1].key == "trip_id" && fs[2].key == "trip_headsign";
    assert fs[3].key == "direction_id" && fs[4].key == "block_id" && fs[5].key == "shape_id";
    assert fs[6].key == "wheelchair_accessible" && fs[7].key == "bikes_allowed";
  }

  lemma TripRoundTrip(t: Trip)
    ensures TripFromJson(TripToJson(t)) == Some(t)
  {
    TripObjectFields(t);
    TripFromObject(TripToJson(t).fields, t);
  }

  datatype StopTime = StopTime(
    tripId: string,
    arrivalTime: string,
    departureTime: string,
    stopId: string,
    stopSequence: Int64,
    stopHeadsign: Option<string>,
    pickupType: Option<Int64>,
    dropOffType: Option<Int64>,
    shapeDistTraveled: Option<real>,
    timepoint: Option<Int64>)

  function StopTimeFields(st: StopTime): (fs: seq<Field>)
    ensures DistinctKeys(fs)
  {
    [ Field("trip_id", Some(JStr(st.tripId))),
      Field("arrival_time", Some(JStr(st.arrivalTime))),
      Field("departure_time", Some(JStr(st.departureTime))),
      Field("stop_id", Some(JStr(st.stopId))),
      Field("stop_sequence", Some(FromInt(st.stopSequence))),
      Field("stop_headsign", OptStr(st.stopHeadsign)),
      Field("pickup_type", OptIntJson(st.pickupType)),
      Field("drop_off_type", OptIntJson(st.dropOffType)),
      Field("shape_dist_traveled", OptNum(st.shapeDistTraveled)),
      Field("timepoint", OptIntJson(st.timepoint)) ]
  }

  function StopTimeToJson(st: StopTime): (j: Json)
    ensures j.JObj?
  {
    JObj(ObjectOf(StopTimeFields(st)))
  }

  function StopTimeFromJson(j: Json): (r: Option<StopTime>)
    ensures r.Some? ==> j.JObj?
  {
    if !j.JObj? then None
    else
      var o := j.fields;
      var tripId :- ReqString(o, "trip_id");
      var arrivalTime :- ReqString(o, "arrival_time");
      var departureTime :- ReqString(o, "departure_time");
      var stopId :- ReqString(o, "stop_id");
      var stopSequence :- ReqInt(o, "stop_sequence");
      var stopHeadsign :- OptString(o, "stop_headsign");
      var pickupType :- OptInt(o, "pickup_type");
      var dropOffType :- OptInt(o, "drop_off_type");
      var shapeDistTraveled :- OptDouble(o, "shape_dist_traveled");
      var timepoint :- OptInt(o, "timepoint");
      Some(StopTime(tripId, arrivalTime, departureTime, stopId, stopSequence, stopHeadsign,
                    pickupType, dropOffType, shapeDistTraveled, timepoint))
  }

  lemma StopTimeFromObject(o: map<string, Json>, st: StopTime)
    requires ReqString(o, "trip_id") == Some(st.tripId)
    requires ReqString(o, "arrival_time") == Some(st.arrivalTime)
    requires ReqString(o, "departure_time") == Some(st.departureTime)
    requires ReqString(o, "stop_id") == Some(st.stopId)
    requires ReqInt(o, "stop_sequence") == Some(st.stopSequence)
    requires OptString(o, "stop_headsign") == Some(st.stopHeadsign)
    requires OptInt(o, "pickup_type") == Some(st.pickupType)
    requires OptInt(o, "drop_off_type") == Some(st.dropOffType)
    requires OptDouble(o, "shape_dist_traveled") == Some(st.shapeDistTraveled)
    requires OptInt(o, "timepoint") == Some(st.timepoint)
    ensures StopTimeFromJson(JObj(o)) == Some(st)
  {
  }

  lemma StopTimeObjectRequired(st: StopTime)
    ensures ReqString(StopTimeToJson(st).fields, "trip_id") == Some(st.tripId)
    ensures ReqString(StopTimeToJson(st).fields, "arrival_time") == Some(st.arrivalTime)
    ensures ReqString(StopTimeToJson(st).fields, "departure_time") == Some(st.departureTime)
    ensures ReqString(StopTimeToJson(st).fields, "stop_id") == Some(st.stopId)
    ensures ReqInt(StopTimeToJson(st).fields, "stop_sequence") == Some(st.stopSequence)
  {
    IntRoundTrip(st.stopSequence);
    var fs := StopTimeFields(st);
    assert fs[0].key == "trip_id" && fs[1].key == "arrival_time" && fs[2].key == "departure_time";
    assert fs[3].key == "stop_id" && fs[4].key == "stop_sequence";
  }

  lemma StopTimeObjectOptional(st: StopTime)
    ensures OptString(StopTimeToJson(st).fields, "stop_headsign") == Some(st.stopHeadsign)
    ensures OptDouble(StopTimeToJson(st).fields, "shape_dist_traveled") == Some(st.shapeDistTraveled)
  {
    var fs := StopTimeFields(st);
    assert fs[5].key == "stop_headsign" && fs[8].key == "shape_dist_traveled";
  }

  lemma StopTimeObjectPickup(st: StopTime)
    ensures OptInt(StopTimeToJson(st).fields, "pickup_type") == Some(st.pickupType)
    ensures OptInt(StopTimeToJson(st).fields, "drop_off_type") == Some(st.dropOffType)
  {
    if st.pickupType.Some? {
      IntRoundTrip(st.pickupType.value);
    }
    if st.dropOffType.Some? {
      IntRoundTrip(st.dropOffType.value);
    }
    var fs := StopTimeFields(st);
    assert fs[6].key == "pickup_type" && fs[7].key == "drop_off_type";
  }

  lemma StopTimeObjectTimepoint(st: StopTime)
    ensures OptInt(StopTimeToJson(st).fields, "timepoint") == Some(st.timepoint)
  {
    if st.timepoint.Some? {
      IntRoundTrip(st.timepoint.value);
    }
    var fs := StopTimeFields(st);
    assert fs[9].key == "timepoint";
  }

  lemma StopTimeRoundTrip(st: StopTime)
    ensures StopTimeFromJson(StopTimeToJson(st)) == Some(st)
  {
    StopTimeObjectRequired(st);
    StopTimeObjectOptional(st);
    StopTimeObjectPickup(st);
    StopTimeObjectTimepoint(st);
    StopTimeFromObject(StopTimeToJson(st).fields, st);
  }
}

=== FILE: wrappers.dfy ===
/** Failure-compatible wrappers used across the model: Swift's optionals become
    `Option`, and a `throws` function becomes one returning `Result`. */
module Wrappers {

  datatype Option<+T> = None | Some(value: T) {

    predicate IsFailure() {
      None?
    }

    function PropagateFailure<U>(): Option<U>
      requires None?
    {
      None
    }

    function Extract(): T
      requires Some?
    {
      value
    }
  }

  datatype Result<+R, +E> = Ok(value: R) | Err(error: E) {

    predicate IsFailure() {
      Err?
    }

    function PropagateFailure<U>(): Result<U, E>
      requires Err?
    {
      Err(error)
    }

    function Extract(): R
      requires Ok?
    {
      value
    }
  }
}
